=== FILE: README.md ===
# Call-schedule tidy parser, modelled in Dafny

The call-schedule viewer reads monthly roster workbooks. Each workbook is laid out in weekly blocks:

- row 0 holds the weekday headers;
- from row 1 on, the sheet is cut into blocks of nine rows;
- the first row of a block holds the day-of-month numbers under the weekday columns;
- the other eight rows are shift rows. Each has a label in column 0 and, under each weekday, a comma-separated list of people.

`convert_schedule_to_tidy` flattens such a sheet into records `(Date, Day, Shift, Person, IsHoliday)`. An `OFF` row cell naming `HOLIDAY` emits nothing and instead marks its date as a holiday. Records are tagged with the holiday set as it stands when they are emitted.

The viewer reads the month anchor `(year, month)` from the file name `YYYY-MM.xlsx`. It concatenates the records of every workbook and shows the records of one chosen date.

The files:

- `wrappers.dfy`: `Option` and `Result`.
- `pystr.dfy` (module `PyStr`): the Python string operations the parser relies on:
  - `str.strip` over the `str.isspace` characters;
  - ASCII `upper`/`lower`;
  - `split(',')`;
  - `int()` on text, with sign, the surrounding whitespace `int()` skips (which, unlike `str.isspace`, excludes the ASCII information separators U+001C..U+001F), `_` digit separators and the decimal digits of every script (Unicode category Nd, as of Unicode 15.0);
  - `str(int)`.
- `calendar.dfy` (module `Calendar`): dates as proleptic Gregorian day numbers, which are Python's `date.toordinal()`. It covers the `datetime(year, month, 1)` validity check and `date + timedelta` with Python's overflow bounds, years 1..9999.
- `sheet.dfy` (module `Sheet`): a cell is `Blank` (pandas NaN), `Num(int)` or `Text(string)`. It also gives `str()` and `int()` of a cell.
- `tidy.dfy` (module `Tidy`): the conversion itself, in two parts.
  - `GridEvents` lists, in block, row, column order, what each processed cell does: a holiday mark, or an assignment of people to a shift on a date.
  - `Run` folds `Apply` over that list, threading the list of records and the holiday set exactly as the nested loops do.
  - `TaggedAt` is an independent reference. It tags each event's records with the dates marked by the events strictly before it.
- `viewer.dfy` (module `Viewer`): the anchor read from a file name, the loading loop over all workbooks, and the one-date lookup.

Column labels are a type parameter. The viewer reads with `header=None`, so there they are the column positions.

A generated empty template is saved under the name `YYYY-MM_empty.xlsx` in the folder the viewer loads (pages/generate_empty.py:27). `Viewer.EmptyTemplateNameRejected` shows that the viewer cannot read an anchor from that name: `int("MM_empty")` raises. Such a workbook is therefore always reported as unreadable.

## Model

| member | source | states |
|---|---|---|
| Tidy.ConvertScheduleToTidy | app.py:10-70 | The conversion fails exactly when the anchor year or month is missing (`MissingAnchor`) or is not a valid `datetime` year and month. Every record of a successful conversion has a real calendar date, a trimmed upper-case shift and a non-empty, trimmed, upper-case, comma-free person. |
| Tidy.ShiftLabel | app.py:34 | A row's shift label is trimmed and upper-case. |
| Tidy.BlankLabelIsNan | app.py:34-36 | A blank label becomes the shift `NAN`; the `pd.isna` test on the label never skips a row. |
| Tidy.Keep | app.py:49 | The pieces kept from a cell are no more than the pieces, and each is a person token. |
| Tidy.UpperToken | app.py:49 | A non-empty, trimmed, comma-free piece upper-cases to a person token. |
| Tidy.Tokens | app.py:49 | The people of a cell are person tokens, at most one per comma-separated piece. |
| Tidy.KeepTokens | app.py:49 | Pieces that are already tokens are kept unchanged. |
| Tidy.KeepOne | app.py:49 | A single piece is dropped exactly when it is all whitespace. Otherwise it yields its stripped, upper-cased text. |
| Tidy.KeepAppend | app.py:49 | Pieces are kept independently of each other: the people of a concatenation of pieces are the people of each part, in order. With KeepOne this states that blank pieces, as in `"KASS,"` or `"A, ,B"`, are dropped and the others keep their order. |
| Tidy.TokensOfJoin | app.py:49 | Round trip: a cell holding tokens joined by commas yields exactly those tokens, in order. This includes the empty list. |
| Tidy.KeepNonBlank | app.py:49 | Pieces none of which is blank each yield their stripped, upper-cased text. |
| Tidy.TokensOfPieces | app.py:49 | When no comma-separated piece is blank, the people are the pieces stripped and upper-cased, one per piece, in order. |
| Tidy.MarksHoliday | app.py:51 | A cell can mark a holiday only on the `OFF` row and only when it names at least one person. |
| Tidy.MarksHolidayIff | app.py:51 | For upper-cased tokens, `any(p.lower() == "holiday")` on an `OFF` row holds iff `HOLIDAY` is one of the tokens. |
| Tidy.ResolveDate | app.py:43-47 | A date cell yields a date iff `int()` accepts it and the day `int - 1` after the first of the anchor month lies in years 1..9999. That date is exactly `int - 1` days after the anchor, and it is the day number of a real calendar date of years 1..9999. |
| Tidy.DayNumberDate | app.py:44-45 | A date cell holding day number `n`, as a number or as its text, falls on day `n` of the anchor month. |
| Tidy.ResolvedDay | app.py:43-45 | Against a month anchor, a resolved date cell with number `n` is the calendar date (year, month, `n`) exactly when the month has a day `n`. Any other number lands in a different month. |
| Tidy.CellEvents | app.py:42-53 | A cell does at most one thing. It does something iff its value is not blank and its date cell resolves, and that event carries the resolved date. An assignment carries the row's own label and the column's own day. Under a trimmed upper-case label, the people are tokens. |
| Tidy.RowEvents | app.py:38-40 | A row yields at most one event per column. Every assignment carries the row's own label and a day among the column labels. Under a trimmed upper-case label, every event is well formed. |
| Tidy.ShiftRowsEvents | app.py:33-36 | What the shift rows of a block do carries a real date, a trimmed upper-case label and person tokens. Every assignment's day is one of the column labels. |
| Tidy.WeekEvents | app.py:22-30 | One block: nothing for a block of under two rows or with a blank date row, otherwise its shift rows against the block's date row. WeekEventsOk, BlankWeekEvents and ShortTrailingBlockIgnored state its properties. |
| Tidy.BlocksEvents | app.py:20-21 | The blocks of nine rows in order, the last possibly shorter. BlocksEventsOk and BlocksAppend state its properties. |
| Tidy.GridEvents | app.py:19-21 | The whole sheet, row 0 skipped. GridEventsOk, GridEventsAppend and RowZeroIgnored state its properties. |
| Tidy.WeekEventsOk | app.py:22-40 | Every event of one block is well formed, and every assignment's day is one of the column labels after column 0. |
| Tidy.EventsOkAppend | app.py:20-62 | Well-formed event lists concatenate to a well-formed list. |
| Tidy.OnDaysAppend | app.py:38 | Lists whose assignments all fall on column labels concatenate to such a list. |
| Tidy.BlocksEventsOk | app.py:20-40 | Every event of consecutive nine-row blocks carries a real date, a trimmed upper-case label and person tokens. Every assignment's day is one of the column labels after column 0 (`df.columns[1:]`). |
| Tidy.GridEventsOk | app.py:17-21 | The same for the whole sheet. |
| Tidy.Emit | app.py:55-62 | One record per person, in token order, each with the cell's date, day, shift and holiday tag. |
| Tidy.Apply | app.py:51-62 | Processing one cell never removes a holiday or changes a record already emitted. A holiday mark emits nothing and puts its date in the set. An assignment leaves the set alone and emits one record per person. |
| Tidy.Run | app.py:20-62 | Processing a list of cells never removes a holiday and keeps the records already emitted as a prefix. |
| Tidy.RunHolidays | app.py:51-53 | The holiday set only grows, and it grows by exactly the dates of the holiday marks. |
| Tidy.RunIsTaggedAt | app.py:51-61 | Threading the set through the loop equals the reference: every record is tagged with membership of its date in the marks processed before it. |
| Tidy.RunSnoc | app.py:51-61 | Processing one more cell after a list applies that cell to the state the list left. |
| Tidy.RunAppend | app.py:20-62 | Processing a concatenation is processing the first part, then the second from the state the first part left behind. |
| Tidy.RunKeepsPrefix | app.py:55-62 | Records already in the output stay first and unchanged; what is appended after them does not depend on them. |
| Tidy.RunKeepsRecords | app.py:55-62 | The output of a run is the records it started with, followed by what the run emits from an empty list with the same holiday set. |
| Tidy.RecordsOf | app.py:55-61 | An assignment emits one record per person, in order, each tagged with whether its date is already in the holiday set. A holiday mark emits none. |
| Tidy.After | app.py:51-53 | The holiday set after one cell: a holiday mark adds its date, an assignment leaves it unchanged. |
| Tidy.RecordsOfOk | app.py:55-61 | A well-formed assignment emits well-formed records. |
| Tidy.RunRecordsOk | app.py:51-62 | Well-formed events appended to well-formed records give well-formed records. |
| Tidy.MarkedAppend | app.py:52 | The dates marked by a concatenation are those marked by its parts. |
| Tidy.CellContribution | app.py:42-62 | A cell with a blank value, or whose date cannot be resolved, changes nothing. An `OFF` cell naming `HOLIDAY` emits no record, not even for the other people named, and adds its date to the set. Any other cell emits one record per person, in order, tagged with the current set. |
| Tidy.HolidayTagAtEmission | app.py:61 | Each record's `IsHoliday` is membership of its date in the set of dates marked by cells processed before it. |
| Tidy.LateMarkerNotRetroactive | app.py:51-61 | A marker processed after a record for the same date leaves that record untagged, though the date ends up in the set. A marker processed before it tags it. |
| Tidy.RectangularAppend | app.py:21 | Both halves of a table split at a row are tables. |
| Tidy.BlocksAppend | app.py:20-21 | Nine-row groups split off the front are processed before the rest. |
| Tidy.GridEventsAppend | app.py:19-21 | Everything before a block boundary is processed before everything after it. |
| Tidy.ConvertBlocksInOrder | app.py:20-62 | Output order is block order: converting a sheet cut at a block boundary gives the first part's records, then the second part's, tagged starting from the set the first part left. |
| Tidy.RowZeroIgnored | app.py:19-20 | Replacing row 0 by any other row does not change the result. |
| Tidy.ShortTrailingBlockIgnored | app.py:20-23 | A last block of one row contributes nothing. |
| Tidy.RectangularWithout | app.py:21 | Cutting a run of rows out of a table leaves a table. |
| Sheet.IsNa | app.py:42 | `pd.isna` of a cell: only a blank cell is NaN. Text reading `nan` is not. |
| Tidy.AllBlank | app.py:29 | A date row is blank when every cell in it is NaN, the empty row included. |
| Tidy.BlankBlockFirst | app.py:28-30 | A leading block with a blank date row contributes nothing. |
| Tidy.BlankWeekEvents | app.py:28-30 | A block with a blank date row, inserted at a block boundary, adds no events. |
| Tidy.BlankWeekIgnored | app.py:28-30 | Inserting a block whose date row is blank at a block boundary leaves the conversion unchanged. The block is nine rows, or any length at the end. |
| PyStr.LeadingSpace | app.py:34 | The count of leading whitespace: that prefix is all whitespace and the next character is not. |
| PyStr.TrailingSpace | app.py:34 | The count of trailing whitespace: that suffix is all whitespace and the character before it is not. |
| PyStr.Strip | app.py:34 | The result has no whitespace at either end. It is the slice of the input left after removing leading and trailing whitespace. It is empty iff the input is all whitespace. |
| PyStr.StripSpan | app.py:34 | Cutting a maximal whitespace run from the front and from the back leaves a trimmed slice, with only whitespace after it; it is empty iff the whole input is whitespace. |
| PyStr.StripTrimmed | app.py:49 | Stripping a trimmed string changes nothing. |
| PyStr.StripKeepsOut | app.py:49 | Stripping adds no character, so a comma-free piece stays comma-free. |
| PyStr.StripPadded | app.py:49 | Stripping whitespace padding around a trimmed word gives the word back. |
| PyStr.LeadingSpaceOfPadded | app.py:49 | Whitespace in front of a word that starts with non-whitespace is counted exactly. |
| PyStr.TrailingSpaceOfPadded | app.py:49 | Whitespace after a word that ends with non-whitespace is counted exactly. |
| PyStr.StripNoSpace | app.py:34 | A string without whitespace strips to itself. |
| PyStr.Upper | app.py:34 | Upper-casing keeps the length and gives an upper-case string. Each character lower-cases as before. Whitespace and commas stay where they were. |
| PyStr.Lower | app.py:51 | Lower-casing keeps the length and gives a string without upper-case ASCII letters. Each character upper-cases as before. |
| PyStr.UpperOfUpper | app.py:34 | Upper-casing an upper-case string changes nothing. |
| PyStr.LowerMatchIff | app.py:51 | For an upper-case string `p` and a lower-case word, `p.lower() == word` iff `p == word.upper()`. |
| PyStr.Split | app.py:49 | Splitting gives at least one piece. No piece contains the separator. Joining the pieces with the separator gives the input back. |
| PyStr.SplitJoin | app.py:49 | Round trip: splitting separator-free pieces joined by the separator gives the pieces back. |
| PyStr.DigitRunChars | app.py:44 | A run of digits with single `_` separators holds only digits and `_`. |
| PyStr.ParseInt | app.py:44 | `int()` accepts text only when it holds a decimal digit. Digits of every script count: Arabic-Indic, Devanagari and the other blocks of Unicode category Nd. |
| PyStr.IsIntSpace | app.py:44 | The whitespace `int()` skips: `str.isspace` without the information separators FS, GS, RS and US. |
| PyStr.IntLead | app.py:44 | The count of leading whitespace `int()` skips: that prefix is such whitespace and the next character is not. |
| PyStr.IntTrail | app.py:44 | The count of trailing whitespace `int()` skips, never overlapping the leading count: that suffix is such whitespace and the character before it is not. |
| PyStr.IntStrip | app.py:44 | What `int()` reads once its whitespace is skipped is a slice of the input starting after the leading whitespace. |
| PyStr.LeadPadding | app.py:44 | The skipped prefix is all whitespace `int()` skips. |
| PyStr.TrailPadding | app.py:44 | The skipped suffix is all whitespace `int()` skips. |
| PyStr.InfoSeparatorRejected | app.py:44 | For every digit run `ds`, `int(ds)` succeeds and `strip()` turns `"\x1c" + ds` into `ds`, yet `int("\x1c" + ds)` raises. |
| PyStr.ParseIntNonDigitEnd | app.py:87 | `int()` rejects text ending in a character that is neither a decimal digit of any script nor whitespace `int()` skips. |
| PyStr.ParsePadded | app.py:44 | `int()` reads a digit run with an optional `+` or `-` and, on either side, whitespace it skips as the run's value, negated after `-`: `int(" +7 ") == 7`. |
| PyStr.PaddedNoSeparator | app.py:44 | Padding `int()` skips around a separator-free word adds no information separator. |
| PyStr.ParsedShape | app.py:44 | Conversely, every text `int()` accepts is an optionally signed digit run padded with whitespace `int()` skips, so ParsePadded gives the value of every accepted text. |
| PyStr.PaddedParts | app.py:44 | The skipped whitespace, sign, digit run and skipped whitespace that an accepted text is made of. |
| PyStr.SignedParts | app.py:44 | Text `int()` accepts after stripping is an optional sign followed by a digit run. |
| PyStr.SignedValue | app.py:44 | An unpadded signed digit run reads as its value, negated after `-`. |
| PyStr.StripSignedPadded | app.py:44 | Stripping a padded signed digit run leaves the sign and the run. |
| PyStr.ParseSigned | app.py:44 | Unpadded text is accepted only when it ends in a decimal digit. |
| PyStr.ParseIntIsSigned | app.py:44 | `int()` fails on any text holding an information separator. On all other text it reads what `strip()` leaves. |
| PyStr.SeparatorKept | app.py:44 | An information separator in the input is never skipped, so it is in what `int()` reads. |
| PyStr.SignedNoSeparator | app.py:44 | Text read as an optionally signed digit run holds no information separator. |
| PyStr.IntStripIsStrip | app.py:44 | On text without information separators, what `int()` reads is exactly what `strip()` leaves. |
| PyStr.SameLead | app.py:44 | Without information separators, `int()` skips as many leading characters as `strip()` removes. |
| PyStr.SameTrail | app.py:44 | Without information separators, `int()` stops at the back where `strip()` does. |
| PyStr.StripEnd | app.py:34 | After the end of what `strip()` keeps there is only whitespace, and the last kept character is not whitespace. |
| PyStr.SameBound | app.py:44 | Two maximal leading-whitespace counts, one by `int()`'s rule and one by `str.isspace`, agree on text without information separators. |
| PyStr.SameEnd | app.py:44 | The same for where the trailing whitespace starts. |
| PyStr.IsSpace | app.py:34 | `str.isspace` on one character: tab to carriage return, U+001C..U+001F, space, U+0085, U+00A0, U+1680, U+2000..U+200A, U+2028, U+2029, U+202F, U+205F and U+3000. |
| PyStr.IsDigit | app.py:44 | A decimal digit of any script, Unicode category Nd. |
| PyStr.IsDigitRun | app.py:44 | What `int()` accepts after the sign: digits, with single `_` only between two digits. |
| PyStr.DigitsValue | app.py:44 | The decimal value of digits, `_` ignored, most significant first. |
| PyStr.DigitZero | app.py:44 | Each decimal digit lies in a block of ten digits whose zero is found. Below U+0080 the digits are exactly `0`..`9`. Above, every block lies clear of whitespace. |
| PyStr.BlockZero | app.py:44 | The zeros of the 67 non-ASCII digit blocks of Unicode 15.0, each block clear of whitespace. |
| PyStr.ZeroFrom | app.py:44 | A block the search finds holds the character and lies clear of whitespace. ZeroFromNone states that -1 is reported only when no block holds it. |
| PyStr.ZeroFromNone | app.py:44 | The block search reports -1 exactly when no block from the starting one on holds the character. |
| PyStr.DigitTable | app.py:44 | Above ASCII, a character is a decimal digit exactly when a block of the Unicode 15.0 Nd table holds it. |
| PyStr.DigitValue | app.py:44 | Every decimal digit has a value from 0 to 9. |
| PyStr.DigitIsNotSpace | app.py:44 | No decimal digit is whitespace, a sign, `_`, `.` or `,`. |
| PyStr.TwoDigitValue | app.py:44 | Two digits of any script read as ten times the first digit's value plus the second's. |
| PyStr.ArabicIndicDigits | app.py:44 | `int("\u0661\u0665")` is 15. |
| PyStr.DevanagariDigits | app.py:44 | `int("\u096a\u0968")` is 42. |
| PyStr.ParseDigits | app.py:87 | A run of digits with single `_` separators is read by `int()` as its digit value. |
| PyStr.NatDigits | app.py:44 | The decimal digits of a natural number are a non-empty digit string. From 10 on it does not start with `0`. |
| PyStr.Decimal | app.py:44 | `str()` of an integer is non-empty and is decimal digits with an optional leading minus sign. |
| PyStr.NatDigitsValue | app.py:44 | The digits read back as the number. |
| PyStr.ParseDecimal | app.py:44 | Round trip: `int(str(n)) == n`. |
| PyStr.LeadingZeroValue | app.py:44 | A leading zero does not change the value of a digit string. |
| Sheet.ToInt | app.py:42-44 | A blank cell never yields an integer, so a successful `int(date_val)` implies the `pd.notna(date_val)` test. |
| Sheet.ToIntOfStr | app.py:44-49 | `int(str(cell)) == int(cell)`: NaN prints as `nan`, which `int()` rejects as it rejects NaN, and an integer prints as digits that read back as itself. |
| Sheet.Str | app.py:34-49 | `str()` of a cell: `nan` for a blank cell, the decimal digits of a number, the text itself. ToIntOfStr and BlankLabelIsNan state its properties. |
| Sheet.Rest | app.py:26 | Dropping column 0 leaves one element fewer. |
| Calendar.DaysInMonth | app.py:45 | Every month has 28 to 31 days. |
| Calendar.AddDays | app.py:45 | Adding `k` days succeeds iff the result is a day number of years 1..9999. It is then exactly `k` after the start, and it is the day number of a real calendar date. |
| Calendar.ValidAnchor | app.py:14 | `datetime(year, month, 1)` succeeds exactly for years 1..9999 and months 1..12. |
| Calendar.Ordinal | app.py:45 | `date.toordinal()`. OrdinalInRange, OrdinalInjective, OrdinalIncreasing and FromOrdinalOfOrdinal state its properties. |
| Calendar.FirstOfMonth | app.py:14 | The first of a valid anchor month is a day number in Python's range. |
| Calendar.NextDayOrdinal | app.py:45 | Every date but 31 December 9999 has a next calendar date, and its day number is one more. |
| Calendar.FromOrdinal | app.py:45 | Every day number of Python's range is the day number of a calendar date of years 1..9999. |
| Calendar.OrdinalOnto | app.py:45 | The converse of OrdinalInRange: every day number of Python's range names some calendar date. |
| Calendar.FromOrdinalOfOrdinal | app.py:45 | Round trip: `date.fromordinal(d.toordinal()) == d`. |
| Calendar.DayOfMonth | app.py:44-45 | `n - 1` days after the first of a month is that month's day `n` exactly when the month has a day `n`. |
| Calendar.DayInMonth | app.py:44-45 | Day `n` of a month, counted from its first, is in range and has `n` as its day. |
| Calendar.MonthOffset | app.py:44-45 | Day `n` of a month is `n - 1` days after its first. |
| Calendar.NextMonth | app.py:45 | Consecutive months are laid end to end. |
| Calendar.NextYear | app.py:45 | A year has 366 days if it is a leap year and 365 days otherwise. |
| Calendar.LeapCount | app.py:45 | Inclusion-exclusion form of the Gregorian leap rule: divisible by 4, less divisible by 100, plus divisible by 400, is 1 exactly for a leap year and 0 otherwise. |
| Calendar.DivStep | app.py:45 | Step rule for the leap-day counts. |
| Calendar.MonthsBefore | app.py:45 | Every day of a month comes before every later month of the year. |
| Calendar.YearsBefore | app.py:45 | Every day of a year comes before every later year. |
| Calendar.LastDayOfYear | app.py:45 | No day of a year comes after its 31 December. |
| Calendar.OrdinalIncreasing | app.py:45 | Calendar order is day-number order. |
| Calendar.OrdinalInjective | app.py:101 | Two calendar dates share a day number exactly when they are the same date, so records from different workbooks compare equal on `Date` exactly when they name the same day. |
| Calendar.OrdinalInRange | app.py:45 | Every date of years 1..9999 has a day number in Python's range. |
| Calendar.OffsetIsCalendarDay | app.py:44-45 | `day_num - 1` days after the first of a month is that month's day `day_num` when the month has such a day. |
| Calendar.OffsetRollsOver | app.py:44-45 | Day numbers are not checked against the month length: the day after the month's last day is the first of the next month. |
| Viewer.RemoveAll | app.py:86 | Removing `.xlsx` never lengthens a name and leaves a name without `.` unchanged. |
| Viewer.AnchorFromName | app.py:86-87 | An anchor is read only when the name without `.xlsx` splits on `-` into exactly two parts, and it is what `int()` makes of them. AnchorOfParts states the converse. |
| Viewer.AnchorOfParts | app.py:86-87 | A name `A-B.xlsx` whose parts hold no `.` or `-` has the anchor `(int(A), int(B))`, and none exactly when `int()` rejects either part. |
| Viewer.UndashedNameRejected | app.py:87 | A name `A.xlsx` without `-` has no anchor: unpacking one piece into two raises. |
| Viewer.RemoveSuffix | app.py:86 | Removing `.xlsx` from a name without `.` plus `.xlsx` gives the name back. |
| Viewer.TwoDigits | pages/generate_empty.py:27 | The month as two digits, zero-padded, as `{month:02d}` renders it. |
| Viewer.TwoDigitsValue | app.py:87 | A two-digit month reads back as the month and is all digits. |
| Viewer.NameParts | app.py:86-87 | A name `A-B.xlsx` whose parts hold no `.` or `-` splits into exactly `A` and `B`. |
| Viewer.DigitsHaveNoSeparator | app.py:87 | Digit strings hold neither `.` nor `-`. |
| Viewer.AnchorOfMonthFileName | app.py:86-87 | Round trip: the name `YYYY-MM.xlsx` of a month gives back that year and month. |
| Viewer.SuffixedNameRejected | app.py:87 | A name whose month part ends in a character that is neither a decimal digit of any script nor whitespace `int()` skips gives no anchor. |
| Viewer.EmptyTemplateNameRejected | pages/generate_empty.py:27 | The generated template name `YYYY-MM_empty.xlsx` gives no anchor. |
| Viewer.FileRecords | app.py:84-93 | A workbook contributes records iff its name gives an anchor that is a valid year and month. Otherwise it is reported. |
| Viewer.LoadAll | app.py:83-93 | At most one name is reported per workbook. |
| Viewer.UnreadableTail | app.py:84-93 | Names of unconvertible workbooks in the rest of the list name unconvertible workbooks of the whole list. |
| Viewer.Join1 | app.py:89-93 | A converted workbook puts exactly its records in front of the later ones and reports nothing. A failed one adds no record and is reported first, under its own name, before the later reports. |
| Viewer.LoadAllOne | app.py:84-93 | One workbook alone gives exactly its records and no report when it converts, and no records and its name otherwise. With LoadAllAppend this determines the load of any list. |
| Viewer.UnreadableReported | app.py:84-93 | Every workbook that cannot be converted is reported by name, the converse of FailedAreUnreadable. |
| Viewer.FailedAreUnreadable | app.py:84-93 | Every reported name is that of a workbook whose anchor or conversion fails. |
| Viewer.WellShapedAppend | app.py:88 | Both halves of a list of well-shaped workbooks are well-shaped. |
| Viewer.Join1Assoc | app.py:96 | Joining one workbook's outcome commutes with appending later results. |
| Viewer.LoadAllAppend | app.py:96 | Loading two groups of workbooks is the first group's records followed by the second's, with nothing merged or removed. |
| Viewer.DuplicatesKept | app.py:84-96 | The same workbook loaded twice contributes its records twice, or, when it cannot be converted, is reported twice. |
| Viewer.RecordsOn | app.py:101 | The lookup returns only records of the chosen date, all of them, and nothing not in the schedule. |
| Viewer.RecordsOnAppend | app.py:101 | The lookup distributes over concatenation, so it keeps the schedule's order. |
| Viewer.RecordsOnAllSameDate | app.py:101 | Records that are all on the chosen date are returned unchanged and in order. |

## Left out

- Streamlit UI, HTML rendering and the date picker (app.py:76-81, 98-128): presentation only. The chosen date is a parameter of `Viewer.RecordsOn`.
- `glob` and `pd.read_excel` (app.py:78, 88): file I/O. A workbook is given as a file name plus its sheet as a table of cells. The order in which `glob` lists files is the order of the given sequence.
- The text of the `st.error` messages (app.py:81, 93): the model keeps only the names of unreadable workbooks. `Viewer.FileRecords` models the conversion errors and anchor errors. Errors raised by `read_excel` itself are not modelled.
- Non-integral numeric cells (e.g. 3.7) and their float rendering are not modelled. The sheet is read without a header row, so its columns hold Python objects, and integral numbers arrive as `int`. Cells are blank, integer or text. A text cell `"5.0"` is modelled: `int()` rejects it, as Python does.
- `Sheet.ToInt`: Python refuses `int()` on text of more than 4300 digits; the model reads any length.
- Non-ASCII case mapping: `upper`/`lower` are modelled on ASCII letters only.
- PyStr.ParseInt: the digit table is that of Unicode 15.0, the version Python 3.12 uses; other Python versions may accept a few more or fewer digit blocks.
- The final `pd.to_datetime(...).dt.date` (app.py:66-68) is modelled as leaving the dates unchanged. pandas would raise for dates outside its nanosecond range (years 1677..2262).
- Cell types other than blank, number and text (Excel dates, booleans) are not modelled.
- The empty-result check at app.py:90: an empty result appended to the concatenation changes nothing, so it is not modelled separately. Neither is the "nothing loaded" branch at app.py:95.
- home.py and pages/heatmap.py are not part of this model. Their parser and loader are stubs; the heat map is image lookup.
- pages/generate_empty.py is modelled only through the name it saves under.
- The cell traversal stops at the shortest of the date row, the shift row and the column labels. On a DataFrame these lengths agree, so this only makes the functions total. The branch that skips a row without cells cannot occur for a DataFrame row either.

=== FILE: calendar.dfy ===
/**
 * Proleptic Gregorian day numbers, as Python's `datetime` module computes
 * them: day 1 is 0001-01-01 and the last representable day, 9999-12-31, is
 * `MaxOrdinal`.  A parsed date is stored as this day number (what
 * `date.toordinal()` returns), so dates from different months compare
 * correctly.
 */
module Calendar {
  import opened Wrappers

  const MinYear := 1
  const MaxYear := 9999
  /** The day number of 9999-12-31. */
  const MaxOrdinal := 3652059

  predicate IsLeap(y: int) {
    y % 4 == 0 && (y % 100 != 0 || y % 400 == 0)
  }

  /** What `datetime(year, month, 1)` accepts without raising. */
  predicate ValidAnchor(y: int, m: int) {
    MinYear <= y <= MaxYear && 1 <= m <= 12
  }

  function DaysInMonth(y: int, m: int): (n: int)
    requires 1 <= m <= 12
    ensures 28 <= n <= 31
  {
    if m == 2 then (if IsLeap(y) then 29 else 28)
    else if m == 4 || m == 6 || m == 9 || m == 11 then 30
    else 31
  }

  predicate ValidDate(y: int, m: int, d: int) {
    ValidAnchor(y, m) && 1 <= d <= DaysInMonth(y, m)
  }

  /** Days in the months of year `y` before month `m`. */
  function DaysBeforeMonth(y: int, m: int): int
    requires 1 <= m <= 12
  {
    var leap := if m > 2 && IsLeap(y) then 1 else 0;
    leap + (
      if m == 1 then 0 else if m == 2 then 31 else if m == 3 then 59
      else if m == 4 then 90 else if m == 5 then 120 else if m == 6 then 151
      else if m == 7 then 181 else if m == 8 then 212 else if m == 9 then 243
      else if m == 10 then 273 else if m == 11 then 304 else 334)
  }

  /** Days in the years before year `y`. */
  function DaysBeforeYear(y: int): int
    requires y >= 1
  {
    var a := y - 1;
    365 * a + a / 4 - a / 100 + a / 400
  }

  /** `date(y, m, d).toordinal()`. */
  function Ordinal(y: int, m: int, d: int): int
    requires ValidAnchor(y, m)
  {
    DaysBeforeYear(y) + DaysBeforeMonth(y, m) + d
  }

  /** The day number of the first day of month `m` of year `y`. */
  function FirstOfMonth(y: int, m: int): (r: int)
    requires ValidAnchor(y, m)
    ensures 1 <= r <= MaxOrdinal
  {
    OrdinalInRange(y, m, 1);
    Ordinal(y, m, 1)
  }

  /**
   * `date + timedelta(days = k)`: the day `k` days after `base`, or `None`
   * where Python raises `OverflowError` because the result would leave
   * years 1..9999.
   */
  function AddDays(base: int, k: int): (r: Option<int>)
    ensures r.Some? <==> 1 <= base + k <= MaxOrdinal
    ensures r.Some? ==> r.value - base == k
    ensures r.Some? ==> exists y, m, d :: ValidDate(y, m, d) && Ordinal(y, m, d) == r.value
  {
    if 1 <= base + k <= MaxOrdinal then
      OrdinalOnto(base + k);
      Some(base + k)
    else None
  }

  /** The calendar day after a date. */
  function NextDay(y: int, m: int, d: int): (int, int, int)
    requires ValidDate(y, m, d)
  {
    if d < DaysInMonth(y, m) then (y, m, d + 1)
    else if m < 12 then (y, m + 1, 1)
    else (y + 1, 1, 1)
  }

  /** Every date but the last has a next day, and its day number is one more. */
  lemma NextDayOrdinal(y: int, m: int, d: int)
    requires ValidDate(y, m, d) && Ordinal(y, m, d) < MaxOrdinal
    ensures var (y', m', d') := NextDay(y, m, d);
      ValidDate(y', m', d') && Ordinal(y', m', d') == Ordinal(y, m, d) + 1
  {
    if d == DaysInMonth(y, m) {
      if m < 12 {
        NextMonth(y, m);
      } else {
        assert y < MaxYear by {
          assert Ordinal(MaxYear, 12, 31) == MaxOrdinal;
        }
        NextYear(y);
      }
    }
  }

  /**
   * `date.fromordinal(x)`: the calendar date whose day number is `x`.  Every
   * day number of Python's range names a date of years 1..9999.
   */
  function FromOrdinal(x: int): (r: (int, int, int))
    requires 1 <= x <= MaxOrdinal
    ensures ValidDate(r.0, r.1, r.2) && Ordinal(r.0, r.1, r.2) == x
    decreases x
  {
    if x == 1 then (1, 1, 1)
    else
      var (y, m, d) := FromOrdinal(x - 1);
      NextDayOrdinal(y, m, d);
      NextDay(y, m, d)
  }

  /** Day numbers and calendar dates correspond one to one over years 1..9999. */
  lemma OrdinalOnto(x: int)
    requires 1 <= x <= MaxOrdinal
    ensures exists y, m, d :: ValidDate(y, m, d) && Ordinal(y, m, d) == x
  {
    var (y, m, d) := FromOrdinal(x);
    assert ValidDate(y, m, d) && Ordinal(y, m, d) == x;
  }

  /** Round trip: `date.fromordinal(date(y, m, d).toordinal()) == date(y, m, d)`. */
  lemma FromOrdinalOfOrdinal(y: int, m: int, d: int)
    requires ValidDate(y, m, d)
    ensures 1 <= Ordinal(y, m, d) <= MaxOrdinal
    ensures FromOrdinal(Ordinal(y, m, d)) == (y, m, d)
  {
    OrdinalInRange(y, m, d);
    var (y', m', d') := FromOrdinal(Ordinal(y, m, d));
    OrdinalInjective(y, m, d, y', m', d');
  }

  /**
   * Counting `n` days from the first of a month lands on day `n` of that
   * month exactly when the month has a day `n`.
   */
  lemma DayOfMonth(y: int, m: int, n: int, x: int)
    requires ValidAnchor(y, m) && x == FirstOfMonth(y, m) + n - 1 && 1 <= x <= MaxOrdinal
    ensures (1 <= n <= DaysInMonth(y, m)) <==> FromOrdinal(x) == (y, m, n)
  {
    if 1 <= n <= DaysInMonth(y, m) {
      DayInMonth(y, m, n, x);
    }
  }

  /** Day `n` of a month, counted from its first, has `n` as its day. */
  lemma DayInMonth(y: int, m: int, n: int, x: int)
    requires ValidDate(y, m, n) && x == FirstOfMonth(y, m) + n - 1
    ensures 1 <= x <= MaxOrdinal && FromOrdinal(x) == (y, m, n)
  {
    OrdinalInRange(y, m, n);
    MonthOffset(y, m, n);
    var (y', m', d') := FromOrdinal(x);
    OrdinalInjective(y, m, n, y', m', d');
  }

  /** Day `n` of a month is `n - 1` days after its first. */
  lemma MonthOffset(y: int, m: int, n: int)
    requires ValidAnchor(y, m)
    ensures FirstOfMonth(y, m) + n - 1 == Ordinal(y, m, n)
  {
  }

  /** The months of a year are laid end to end. */
  lemma NextMonth(y: int, m: int)
    requires 1 <= m < 12
    ensures DaysBeforeMonth(y, m + 1) == DaysBeforeMonth(y, m) + DaysInMonth(y, m)
  {
  }

  /** A year has 366 days when it is a leap year and 365 otherwise. */
  lemma {:induction false} NextYear(y: int)
    requires y >= 1
    ensures DaysBeforeYear(y + 1) == DaysBeforeYear(y) + DaysBeforeMonth(y, 12) + DaysInMonth(y, 12)
  {
    var a := y - 1;
    DivStep(a, 4);
    DivStep(a, 100);
    DivStep(a, 400);
    LeapCount(y);
    assert DaysBeforeYear(y + 1) == 365 * a + 365 + y / 4 - y / 100 + y / 400;
    assert DaysBeforeMonth(y, 12) + DaysInMonth(y, 12) == 365 + (if IsLeap(y) then 1 else 0);
  }

  /** The Gregorian leap rule as the inclusion-exclusion count the year formula uses. */
  lemma LeapCount(y: int)
    ensures (if y % 4 == 0 then 1 else 0) - (if y % 100 == 0 then 1 else 0) + (if y % 400 == 0 then 1 else 0)
      == (if IsLeap(y) then 1 else 0)
  {
    if y % 400 == 0 {
      assert y == 100 * (4 * (y / 400));
    }
    if y % 100 == 0 {
      assert y == 4 * (25 * (y / 100));
    }
  }

  lemma DivStep(a: nat, k: int)
    requires k == 4 || k == 100 || k == 400
    ensures (a + 1) / k == a / k + (if (a + 1) % k == 0 then 1 else 0)
  {
  }

  lemma {:induction false} MonthsBefore(y: int, m: int, m': int)
    requires 1 <= m < m' <= 12
    ensures DaysBeforeMonth(y, m) + DaysInMonth(y, m) <= DaysBeforeMonth(y, m')
    decreases m' - m
  {
    NextMonth(y, m);
    if m + 1 < m' {
      MonthsBefore(y, m + 1, m');
    }
  }

  /** Every day of year `y` comes before every day of any later year. */
  lemma {:induction false} YearsBefore(y: int, y': int)
    requires 1 <= y < y'
    ensures DaysBeforeYear(y) + DaysBeforeMonth(y, 12) + DaysInMonth(y, 12) <= DaysBeforeYear(y')
    decreases y' - y
  {
    NextYear(y);
    if y + 1 < y' {
      YearsBefore(y + 1, y');
    }
  }

  lemma LastDayOfYear(y: int, m: int, d: int)
    requires ValidDate(y, m, d)
    ensures Ordinal(y, m, d) <= DaysBeforeYear(y) + DaysBeforeMonth(y, 12) + DaysInMonth(y, 12)
  {
    if m < 12 {
      MonthsBefore(y, m, 12);
    }
  }

  /** Calendar order is day-number order. */
  lemma {:induction false} OrdinalIncreasing(y: int, m: int, d: int, y': int, m': int, d': int)
    requires ValidDate(y, m, d) && ValidDate(y', m', d')
    requires y < y' || (y == y' && m < m') || (y == y' && m == m' && d < d')
    ensures Ordinal(y, m, d) < Ordinal(y', m', d')
  {
    if y < y' {
      LastDayOfYear(y, m, d);
      YearsBefore(y, y');
    } else if m < m' {
      MonthsBefore(y, m, m');
    }
  }

  /**
   * Two calendar dates share a day number only when they are the same date,
   * so day numbers resolved against different month anchors never collide.
   */
  lemma OrdinalInjective(y: int, m: int, d: int, y': int, m': int, d': int)
    requires ValidDate(y, m, d) && ValidDate(y', m', d')
    ensures Ordinal(y, m, d) == Ordinal(y', m', d') <==> y == y' && m == m' && d == d'
  {
    if y < y' || (y == y' && m < m') || (y == y' && m == m' && d < d') {
      OrdinalIncreasing(y, m, d, y', m', d');
    } else if y' < y || (y == y' && m' < m) || (y == y' && m == m' && d' < d) {
      OrdinalIncreasing(y', m', d', y, m, d);
    }
  }

  /** Every valid calendar date has a day number in Python's range. */
  lemma OrdinalInRange(y: int, m: int, d: int)
    requires ValidDate(y, m, d)
    ensures 1 <= Ordinal(y, m, d) <= MaxOrdinal
  {
    if (y, m, d) != (MaxYear, 12, 31) {
      OrdinalIncreasing(y, m, d, MaxYear, 12, 31);
    }
    assert Ordinal(MaxYear, 12, 31) == MaxOrdinal;
  }

  /**
   * The day `n - 1` days after the first of a month is that month's day `n`
   * whenever `n` is one of its days.
   */
  lemma OffsetIsCalendarDay(y: int, m: int, n: int)
    requires ValidDate(y, m, n)
    ensures AddDays(FirstOfMonth(y, m), n - 1) == Some(Ordinal(y, m, n))
  {
    OrdinalInRange(y, m, n);
  }

  /**
   * Day numbers are not checked against the month's length: the day one
   * past the last of a month is the first of the next month.
   */
  lemma OffsetRollsOver(y: int, m: int)
    requires ValidAnchor(y, m) && (y, m) != (MaxYear, 12)
    ensures var (y', m') := if m < 12 then (y, m + 1) else (y + 1, 1);
      ValidAnchor(y', m') && AddDays(FirstOfMonth(y, m), DaysInMonth(y, m)) == Some(FirstOfMonth(y', m'))
  {
    if m < 12 {
      NextMonth(y, m);
      OrdinalInRange(y, m + 1, 1);
    } else {
      NextYear(y);
      OrdinalInRange(y + 1, 1, 1);
    }
  }
}

=== FILE: pystr.dfy ===
/**
 * The slice of Python's `str` and `int` behaviour that the schedule parser
 * relies on: `str.isspace`, `strip`, `upper`, `lower`, `split(sep)`,
 * `str(int)` and `int(str)`.  Case mapping covers ASCII letters only.
 */
module PyStr {
  import opened Wrappers

  /** Python's `str.isspace()` on a single character. */
  predicate IsSpace(c: char) {
    || c == ' '
    || ('\t' <= c <= '\r')
    || ('\U{1c}' <= c <= '\U{1f}')
    || c == '\U{85}' || c == '\U{a0}' || c == '\U{1680}'
    || ('\U{2000}' <= c <= '\U{200a}')
    || c == '\U{2028}' || c == '\U{2029}' || c == '\U{202f}' || c == '\U{205f}' || c == '\U{3000}'
  }

  predicate AllSpace(s: string) {
    forall k :: 0 <= k < |s| ==> IsSpace(s[k])
  }

  /** `s` has no whitespace at either end. */
  predicate IsTrimmed(s: string) {
    s == [] || (!IsSpace(s[0]) && !IsSpace(s[|s| - 1]))
  }

  /** The number of whitespace characters `s` starts with. */
  function LeadingSpace(s: string): (n: nat)
    ensures n <= |s|
    ensures AllSpace(s[..n])
    ensures n < |s| ==> !IsSpace(s[n])
  {
    if |s| > 0 && IsSpace(s[0]) then 1 + LeadingSpace(s[1..]) else 0
  }

  /** The number of whitespace characters `s` ends with. */
  function TrailingSpace(s: string): (n: nat)
    ensures n <= |s|
    ensures AllSpace(s[|s| - n..])
    ensures n < |s| ==> !IsSpace(s[|s| - n - 1])
  {
    if |s| > 0 && IsSpace(s[|s| - 1]) then 1 + TrailingSpace(s[..|s| - 1]) else 0
  }

  /**
   * Python's `s.strip()`: `s` loses its longest whitespace prefix and then
   * its longest whitespace suffix, so what is left has no whitespace at
   * either end and sits in `s` at offset `LeadingSpace(s)`.
   */
  function Strip(s: string): (r: string)
    ensures IsTrimmed(r)
    ensures LeadingSpace(s) + |r| <= |s|
    ensures r == s[LeadingSpace(s)..LeadingSpace(s) + |r|]
    ensures AllSpace(s[LeadingSpace(s) + |r|..])
    ensures r == [] <==> AllSpace(s)
  {
    var n := LeadingSpace(s);
    var m := TrailingSpace(s[n..]);
    TrailOfSuffix(s, n, m);
    var r := s[n..|s| - m];
    StripSpan(s, n, m, r);
    r
  }

  /** The trailing-whitespace facts about `s[n..]`, restated on `s`. */
  lemma TrailOfSuffix(s: string, n: nat, m: nat)
    requires n <= |s|
    requires var t := s[n..]; m <= |t| && AllSpace(t[|t| - m..]) && (m < |t| ==> !IsSpace(t[|t| - m - 1]))
    ensures AllSpace(s[|s| - m..])
    ensures m < |s| - n ==> !IsSpace(s[|s| - m - 1])
  {
    assert s[n..][|s| - n - m..] == s[|s| - m..];
    if m < |s| - n {
      assert s[n..][|s| - n - m - 1] == s[|s| - m - 1];
    }
  }

  /**
   * What `Strip` needs of its two counts: when `s[..n]` and `s[|s| - m..]`
   * are maximal whitespace runs, the span `r` between them is trimmed, only
   * whitespace follows it, and it is empty only for all-whitespace text.
   */
  lemma StripSpan(s: string, n: nat, m: nat, r: string)
    requires n <= |s| && AllSpace(s[..n]) && (n < |s| ==> !IsSpace(s[n]))
    requires m <= |s| - n && AllSpace(s[|s| - m..]) && (m < |s| - n ==> !IsSpace(s[|s| - m - 1]))
    requires r == s[n..|s| - m]
    ensures IsTrimmed(r)
    ensures n + |r| <= |s|
    ensures r == s[n..n + |r|]
    ensures AllSpace(s[n + |r|..])
    ensures r == [] <==> AllSpace(s)
  {
    assert n + |r| == |s| - m;
    if n == |s| {
      TakeAll(s);
    } else {
      assert !AllSpace(s[n..]) by {
        assert s[n..][0] == s[n];
      }
      assert r[0] == s[n];
      assert r[|r| - 1] == s[|s| - m - 1];
      assert !AllSpace(s) by {
        assert !IsSpace(s[n]);
      }
    }
  }

  /** Stripping undoes whitespace padding around an already-trimmed word. */
  lemma StripPadded(pre: string, w: string, post: string)
    requires AllSpace(pre) && AllSpace(post) && IsTrimmed(w)
    ensures Strip(pre + w + post) == w
  {
    var s := pre + w + post;
    if w == [] {
      assert AllSpace(s) by {
        forall k | 0 <= k < |s| ensures IsSpace(s[k]) {
          if k < |pre| { assert s[k] == pre[k]; } else { assert s[k] == post[k - |pre|]; }
        }
      }
    } else {
      assert s == pre + (w + post);
      LeadingSpaceOfPadded(pre, w + post);
      var t := s[|pre|..];
      assert t == w + post;
      TrailingSpaceOfPadded(w, post);
      assert s[|pre|..|s| - |post|] == w;
    }
  }

  /** A string without whitespace at either end strips to itself. */
  lemma StripTrimmed(s: string)
    requires IsTrimmed(s)
    ensures Strip(s) == s
  {
    StripPadded("", s, "");
    assert "" + s + "" == s;
  }

  /** Stripping introduces no character that was not there. */
  lemma StripKeepsOut(s: string, c: char)
    requires c !in s
    ensures c !in Strip(s)
  {
    var r := Strip(s);
    var n := LeadingSpace(s);
    forall k | 0 <= k < |r| ensures r[k] != c {
      assert r[k] == s[n + k];
    }
  }

  lemma {:induction false} LeadingSpaceOfPadded(pre: string, rest: string)
    requires AllSpace(pre)
    requires rest == [] || !IsSpace(rest[0])
    ensures LeadingSpace(pre + rest) == |pre|
    decreases |pre|
  {
    if pre != [] {
      assert (pre + rest)[1..] == pre[1..] + rest;
      LeadingSpaceOfPadded(pre[1..], rest);
    }
  }

  lemma {:induction false} TrailingSpaceOfPadded(rest: string, post: string)
    requires AllSpace(post)
    requires rest == [] || !IsSpace(rest[|rest| - 1])
    ensures TrailingSpace(rest + post) == |post|
    decreases |post|
  {
    if post != [] {
      var s := rest + post;
      assert s[..|s| - 1] == rest + post[..|post| - 1];
      assert s[|s| - 1] == post[|post| - 1];
      TrailingSpaceOfPadded(rest, post[..|post| - 1]);
    }
  }

  /** ASCII upper-casing of one character, as `str.upper` does for ASCII. */
  function UpperChar(c: char): char {
    if 'a' <= c <= 'z' then (c as int - 32) as char else c
  }

  /** ASCII lower-casing of one character, as `str.lower` does for ASCII. */
  function LowerChar(c: char): char {
    if 'A' <= c <= 'Z' then (c as int + 32) as char else c
  }

  /** `s` holds no lower-case ASCII letter. */
  predicate IsUpper(s: string) {
    forall k :: 0 <= k < |s| ==> !('a' <= s[k] <= 'z')
  }

  /** Python's `s.upper()`: same length, no lower-case letter left, and nothing but letters changed. */
  function Upper(s: string): (r: string)
    ensures |r| == |s| && IsUpper(r)
    ensures forall k :: 0 <= k < |s| ==> LowerChar(r[k]) == LowerChar(s[k])
    ensures forall k :: 0 <= k < |s| ==> (IsSpace(r[k]) <==> IsSpace(s[k])) && (r[k] == ',' <==> s[k] == ',')
  {
    seq(|s|, k requires 0 <= k < |s| => UpperChar(s[k]))
  }

  /** Python's `s.lower()`. */
  function Lower(s: string): (r: string)
    ensures |r| == |s|
    ensures forall k :: 0 <= k < |s| ==> !('A' <= r[k] <= 'Z')
    ensures forall k :: 0 <= k < |s| ==> UpperChar(r[k]) == UpperChar(s[k])
  {
    seq(|s|, k requires 0 <= k < |s| => LowerChar(s[k]))
  }

  /** An upper-case string is its own upper-casing. */
  lemma UpperOfUpper(s: string)
    requires IsUpper(s)
    ensures Upper(s) == s
  {
  }

  /**
   * For a string with no lower-case letter, comparing its lower-casing with a
   * lower-case word is the same as comparing the string with that word's
   * upper-casing.
   */
  lemma {:induction false} LowerMatchIff(p: string, word: string)
    requires IsUpper(p)
    requires forall k :: 0 <= k < |word| ==> 'a' <= word[k] <= 'z'
    ensures Lower(p) == word <==> p == Upper(word)
  {
    if Lower(p) == word {
      forall k | 0 <= k < |p| ensures p[k] == Upper(word)[k] {
        assert LowerChar(p[k]) == word[k];
      }
    }
    if p == Upper(word) {
      forall k | 0 <= k < |p| ensures Lower(p)[k] == word[k] {
        assert p[k] == UpperChar(word[k]);
      }
    }
  }

  /** `pieces` joined by `sep`: Python's `sep.join(pieces)`. */
  function Join(pieces: seq<string>, sep: string): string {
    if pieces == [] then ""
    else if |pieces| == 1 then pieces[0]
    else pieces[0] + sep + Join(pieces[1..], sep)
  }

  /**
   * Python's `s.split(sep)` for a one-character separator: the pieces hold no
   * separator and joining them back with it gives `s`, so the pieces are
   * exactly the maximal separator-free runs of `s`.
   */
  function Split(s: string, sep: char): (r: seq<string>)
    ensures |r| >= 1
    ensures forall i :: 0 <= i < |r| ==> sep !in r[i]
    ensures Join(r, [sep]) == s
  {
    if s == [] then [""]
    else
      var t := Split(s[1..], sep);
      if s[0] == sep then
        [""] + t
      else
        assert Join([[s[0]] + t[0]] + t[1..], [sep]) == [s[0]] + Join(t, [sep]);
        [[s[0]] + t[0]] + t[1..]
  }

  /** Splitting the join of separator-free pieces gives the pieces back. */
  lemma {:induction false} SplitJoin(pieces: seq<string>, sep: char)
    requires |pieces| >= 1
    requires forall i :: 0 <= i < |pieces| ==> sep !in pieces[i]
    ensures Split(Join(pieces, [sep]), sep) == pieces
    decreases |pieces|, |pieces[0]|
  {
    var s := Join(pieces, [sep]);
    if pieces[0] == [] {
      if |pieces| == 1 {
      } else {
        assert s == [sep] + Join(pieces[1..], [sep]);
        assert s[1..] == Join(pieces[1..], [sep]);
        SplitJoin(pieces[1..], sep);
        assert [""] + pieces[1..] == pieces;
      }
    } else {
      var c := pieces[0][0];
      var shorter := [pieces[0][1..]] + pieces[1..];
      assert shorter[1..] == pieces[1..];
      assert s == [c] + Join(shorter, [sep]) by {
        if |pieces| == 1 {
        } else {
          assert pieces[0] == [c] + pieces[0][1..];
        }
      }
      assert s[1..] == Join(shorter, [sep]);
      assert c != sep by { assert c == pieces[0][0]; }
      SplitJoin(shorter, sep);
      var t := Split(s[1..], sep);
      assert t == shorter;
      assert [[c] + t[0]] + t[1..] == pieces by {
        assert [c] + pieces[0][1..] == pieces[0];
      }
    }
  }

  /**
   * A block of ten code points clear of whitespace: above U+0660 and
   * away from the whitespace at U+1680, U+2000..U+205F and U+3000.
   */
  predicate Clean(z: int) {
    && z >= 0x660
    && !(z <= 0x1680 < z + 10)
    && (z + 10 <= 0x2000 || z > 0x205F)
    && !(z <= 0x3000 < z + 10)
  }

  /**
   * The number of non-ASCII blocks of ten consecutive decimal digits
   * (Unicode general category Nd, Unicode 15.0).  `int()` accepts every
   * such digit, not only `0`..`9`.
   */
  const BlockCount := 67

  /** The code point of the zero of non-ASCII digit block `i`, in code point order. */
  function BlockZero(i: nat): (z: int)
    requires i < BlockCount
    ensures Clean(z)
  {
    if i < 28 then ZeroLow(i)
    else if i < 36 then ZeroHigh(i - 28)
    else ZeroSupp(i - 36)
  }

  /** Blocks below U+A000. */
  function ZeroLow(i: nat): (z: int)
    requires i < 28
    ensures Clean(z)
  {
    if i == 0 then 0x660
    else if i == 1 then 0x6F0
    else if i == 2 then 0x7C0
    else if i == 3 then 0x966
    else if i == 4 then 0x9E6
    else if i == 5 then 0xA66
    else if i == 6 then 0xAE6
    else if i == 7 then 0xB66
    else if i == 8 then 0xBE6
    else if i == 9 then 0xC66
    else if i == 10 then 0xCE6
    else if i == 11 then 0xD66
    else if i == 12 then 0xDE6
    else if i == 13 then 0xE50
    else if i == 14 then 0xED0
    else if i == 15 then 0xF20
    else if i == 16 then 0x1040
    else if i == 17 then 0x1090
    else if i == 18 then 0x17E0
    else if i == 19 then 0x1810
    else if i == 20 then 0x1946
    else if i == 21 then 0x19D0
    else if i == 22 then 0x1A80
    else if i == 23 then 0x1A90
    else if i == 24 then 0x1B50
    else if i == 25 then 0x1BB0
    else if i == 26 then 0x1C40
    else 0x1C50
  }

  /** Blocks in U+A000 to U+FFFF. */
  function ZeroHigh(i: nat): (z: int)
    requires i < 8
    ensures Clean(z)
  {
    if i == 0 then 0xA620
    else if i == 1 then 0xA8D0
    else if i == 2 then 0xA900
    else if i == 3 then 0xA9D0
    else if i == 4 then 0xA9F0
    else if i == 5 then 0xAA50
    else if i == 6 then 0xABF0
    else 0xFF10
  }

  /** Blocks in the supplementary planes. */
  function ZeroSupp(i: nat): (z: int)
    requires i < 31
    ensures Clean(z)
  {
    if i == 0 then 0x104A0
    else if i == 1 then 0x10D30
    else if i == 2 then 0x11066
    else if i == 3 then 0x110F0
    else if i == 4 then 0x11136
    else if i == 5 then 0x111D0
    else if i == 6 then 0x112F0
    else if i == 7 then 0x11450
    else if i == 8 then 0x114D0
    else if i == 9 then 0x11650
    else if i == 10 then 0x116C0
    else if i == 11 then 0x11730
    else if i == 12 then 0x118E0
    else if i == 13 then 0x11950
    else if i == 14 then 0x11C50
    else if i == 15 then 0x11D50
    else if i == 16 then 0x11DA0
    else if i == 17 then 0x11F50
    else if i == 18 then 0x16A60
    else if i == 19 then 0x16AC0
    else if i == 20 then 0x16B50
    else if i == 21 then 0x1D7CE
    else if i == 22 then 0x1D7D8
    else if i == 23 then 0x1D7E2
    else if i == 24 then 0x1D7EC
    else if i == 25 then 0x1D7F6
    else if i == 26 then 0x1E140
    else if i == 27 then 0x1E2F0
    else if i == 28 then 0x1E4F0
    else if i == 29 then 0x1E950
    else 0x1FBF0
  }

  /** The zero of the first block from block `i` on that holds `x`, or -1. */
  function ZeroFrom(x: int, i: nat): (z: int)
    requires i <= BlockCount
    ensures z == -1 || (Clean(z) && z <= x < z + 10)
    decreases BlockCount - i
  {
    if i == BlockCount then -1
    else if BlockZero(i) <= x < BlockZero(i) + 10 then BlockZero(i)
    else ZeroFrom(x, i + 1)
  }

  /** The block search reports -1 exactly when no block from block `i` on holds `x`. */
  lemma {:induction false} ZeroFromNone(x: int, i: nat)
    requires i <= BlockCount
    ensures ZeroFrom(x, i) == -1 <==> forall j :: i <= j < BlockCount ==> !(BlockZero(j) <= x < BlockZero(j) + 10)
    decreases BlockCount - i
  {
    if i < BlockCount {
      ZeroFromNone(x, i + 1);
    }
  }

  /**
   * Above ASCII, a character is a decimal digit exactly when one of the
   * blocks of the table holds it.
   */
  lemma DigitTable(c: char)
    requires c >= '\U{80}'
    ensures IsDigit(c) <==> exists j :: 0 <= j < BlockCount && BlockZero(j) <= c as int < BlockZero(j) + 10
  {
    ZeroFromNone(c as int, 0);
  }

  /** The zero of the decimal-digit block that holds `c`, or -1 when `c` is not a decimal digit. */
  function DigitZero(c: char): (z: int)
    ensures z == -1 || z <= c as int < z + 10
    ensures c < '\U{80}' ==> (z != -1 <==> '0' <= c <= '9')
    ensures c >= '\U{80}' ==> z == -1 || Clean(z)
  {
    if c < '\U{80}' then (if '0' <= c <= '9' then '0' as int else -1)
    else ZeroFrom(c as int, 0)
  }

  predicate IsDigit(c: char) {
    DigitZero(c) != -1
  }

  function DigitValue(c: char): (v: int)
    requires IsDigit(c)
    ensures 0 <= v <= 9
  {
    c as int - DigitZero(c)
  }

  /** No decimal digit is whitespace, a sign, an underscore or a separator `int()` or a file name uses. */
  lemma DigitIsNotSpace(c: char)
    requires IsDigit(c)
    ensures !IsSpace(c) && c != '_' && c != '+' && c != '-' && c != '.' && c != ','
  {
  }

  /**
   * The digit part `int()` accepts: decimal digits of any script, where
   * single underscores may separate two digits.
   */
  predicate IsDigitRun(s: string) {
    && |s| > 0
    && IsDigit(s[0])
    && IsDigit(s[|s| - 1])
    && forall k :: 0 <= k < |s| ==> IsDigit(s[k]) || (s[k] == '_' && k + 1 < |s| && IsDigit(s[k + 1]))
  }

  lemma DigitRunChars(s: string)
    requires IsDigitRun(s)
    ensures forall k :: 0 <= k < |s| ==> IsDigit(s[k]) || s[k] == '_'
  {
    forall k | 0 <= k < |s| ensures IsDigit(s[k]) || s[k] == '_' {
      assert IsDigit(s[k]) || (s[k] == '_' && k + 1 < |s| && IsDigit(s[k + 1]));
    }
  }

  /** The decimal value of a digit run, underscores ignored. */
  function DigitsValue(s: string): int
    requires forall k :: 0 <= k < |s| ==> IsDigit(s[k]) || s[k] == '_'
  {
    if s == [] then 0
    else if s[|s| - 1] == '_' then DigitsValue(s[..|s| - 1])
    else 10 * DigitsValue(s[..|s| - 1]) + DigitValue(s[|s| - 1])
  }

  /**
   * The whitespace `int()` skips around a number.  CPython maps non-ASCII
   * whitespace to a space, keeps ASCII characters as they are, and then
   * skips only space, tab, line feed, vertical tab, form feed and carriage
   * return: the information separators, which `str.isspace` accepts, are
   * not skipped.
   */
  predicate IsIntSpace(c: char) {
    IsSpace(c) && !IsInfoSeparator(c)
  }

  /** The ASCII information separators FS, GS, RS and US (U+001C..U+001F). */
  predicate IsInfoSeparator(c: char) {
    '\U{1c}' <= c <= '\U{1f}'
  }

  predicate AllIntSpace(s: string) {
    forall k :: 0 <= k < |s| ==> IsIntSpace(s[k])
  }

  predicate HasInfoSeparator(s: string) {
    exists k :: 0 <= k < |s| && IsInfoSeparator(s[k])
  }

  /** The number of characters `int()` skips at the front of `s`. */
  function IntLead(s: string): (n: nat)
    ensures n <= |s|
    ensures forall k :: 0 <= k < n ==> IsIntSpace(s[k])
    ensures n < |s| ==> !IsIntSpace(s[n])
  {
    if |s| > 0 && IsIntSpace(s[0]) then 1 + IntLead(s[1..]) else 0
  }

  /**
   * The number of characters `int()` skips at the back of `s`, never
   * reaching below index `lo`.
   */
  function IntTrail(s: string, lo: nat): (m: nat)
    requires lo <= |s|
    ensures m <= |s| - lo
    ensures forall k :: |s| - m <= k < |s| ==> IsIntSpace(s[k])
    ensures m < |s| - lo ==> !IsIntSpace(s[|s| - m - 1])
    decreases |s| - lo
  {
    if |s| > lo && IsIntSpace(s[|s| - 1]) then 1 + IntTrail(s[..|s| - 1], lo) else 0
  }

  /**
   * Python's `int(s)` on a string: the whitespace `int()` skips is dropped
   * from both ends, an optional sign is read, and the rest must be a digit
   * run; anything else raises, which is `None` here.
   */
  function ParseInt(s: string): (r: Option<int>)
    ensures r.Some? ==> exists k :: 0 <= k < |s| && IsDigit(s[k])
  {
    var t := IntStrip(s);
    var r := ParseSigned(t);
    if r.Some? then
      var k := IntLead(s) + |t| - 1;
      assert IsDigit(s[k]) by {
        assert t[|t| - 1] == s[k];
      }
      r
    else None
  }

  /** What is left of `s` once `int()` has skipped whitespace at both ends. */
  function IntStrip(s: string): (t: string)
    ensures IntLead(s) + |t| + IntTrail(s, IntLead(s)) == |s|
    ensures t == s[IntLead(s)..IntLead(s) + |t|]
  {
    var n := IntLead(s);
    s[n..|s| - IntTrail(s, n)]
  }

  /** `int()` of text with no surrounding whitespace: an optional sign, then a digit run. */
  function ParseSigned(t: string): (r: Option<int>)
    ensures r.Some? ==> t != [] && IsDigit(t[|t| - 1])
  {
    if t == [] then None
    else
      var body := if t[0] == '-' || t[0] == '+' then t[1..] else t;
      if !IsDigitRun(body) then None
      else
        DigitRunChars(body);
        var v := DigitsValue(body);
        Some(if t[0] == '-' then -v else v)
  }

  /** A signed digit run reads as its value, negated after `-`. */
  lemma SignedValue(sign: string, ds: string)
    requires IsDigitRun(ds)
    requires sign == "" || sign == "+" || sign == "-"
    ensures forall k :: 0 <= k < |ds| ==> IsDigit(ds[k]) || ds[k] == '_'
    ensures ParseSigned(sign + ds) == Some(if sign == "-" then -DigitsValue(ds) else DigitsValue(ds))
  {
    DigitRunChars(ds);
    var w := sign + ds;
    var body := if w[0] == '-' || w[0] == '+' then w[1..] else w;
    assert body == ds && (w[0] == '-' <==> sign == "-") by {
      DigitIsNotSpace(ds[0]);
      if sign == "" {
        assert w == ds;
      } else {
        assert w[0] == sign[0] && w[1..] == ds;
      }
    }
  }

  /**
   * `int()` rejects a string whose last character is neither a decimal
   * digit of any script nor whitespace `int()` skips.
   */
  lemma ParseIntNonDigitEnd(s: string)
    requires s != [] && !IsDigit(s[|s| - 1]) && !IsIntSpace(s[|s| - 1])
    ensures ParseInt(s) == None
  {
    ParseIntIsSigned(s);
    if !HasInfoSeparator(s) {
      assert !IsSpace(s[|s| - 1]);
      var t := Strip(s);
      assert t != [] && t[|t| - 1] == s[|s| - 1] by {
        var n := LeadingSpace(s);
        assert n + |t| == |s|;
      }
      assert ParseSigned(t).None?;
    }
  }

  /** The decimal digits of a natural number, most significant first. */
  function NatDigits(n: nat): (r: string)
    ensures |r| > 0
    ensures forall k :: 0 <= k < |r| ==> IsDigit(r[k])
    ensures n >= 10 ==> r[0] != '0'
  {
    if n < 10 then [('0' as int + n) as char]
    else NatDigits(n / 10) + [('0' as int + n % 10) as char]
  }

  /** Python's `str(n)` for an integer. */
  function Decimal(n: int): (r: string)
    ensures |r| > 0
    ensures forall k :: 0 <= k < |r| ==> IsDigit(r[k]) || (k == 0 && r[k] == '-')
  {
    if n < 0 then "-" + NatDigits(-n) else NatDigits(n)
  }

  lemma {:induction false} NatDigitsValue(n: nat)
    ensures IsDigitRun(NatDigits(n))
    ensures DigitsValue(NatDigits(n)) == n
  {
    var r := NatDigits(n);
    if n >= 10 {
      NatDigitsValue(n / 10);
      assert r[..|r| - 1] == NatDigits(n / 10);
    }
  }

  /** A string with no whitespace is already stripped. */
  lemma StripNoSpace(s: string)
    requires forall k :: 0 <= k < |s| ==> !IsSpace(s[k])
    ensures Strip(s) == s
  {
    StripPadded("", s, "");
    assert "" + s + "" == s;
  }

  /**
   * `int()` reads decimal digits of every script, not only ASCII ones: the
   * Arabic-Indic digits U+0661 U+0665 read as 15.
   */
  lemma ArabicIndicDigits()
    ensures ParseInt("\U{0661}\U{0665}") == Some(15)
  {
    TwoDigitValue("\U{0661}\U{0665}", 1, 5);
  }

  /** The Devanagari digits U+096A U+0968 read as 42. */
  lemma DevanagariDigits()
    ensures ParseInt("\U{096A}\U{0968}") == Some(42)
  {
    TwoDigitValue("\U{096A}\U{0968}", 4, 2);
  }

  /** A two-character digit string reads as its two digit values. */
  lemma TwoDigitValue(s: string, a: int, b: int)
    requires |s| == 2 && IsDigit(s[0]) && IsDigit(s[1])
    requires DigitValue(s[0]) == a && DigitValue(s[1]) == b
    ensures ParseInt(s) == Some(10 * a + b)
  {
    DigitIsNotSpace(s[0]);
    DigitIsNotSpace(s[1]);
    assert IsDigitRun(s);
    ParseDigits(s);
    assert s[..1][..0] == [];
    assert DigitsValue(s[..1]) == a;
    assert DigitsValue(s) == 10 * a + b;
  }

  /** `int()` of a bare digit run, without sign or padding, is its decimal value. */
  lemma ParseDigits(s: string)
    requires IsDigitRun(s)
    ensures (forall k :: 0 <= k < |s| ==> IsDigit(s[k]) || s[k] == '_') && ParseInt(s) == Some(DigitsValue(s))
  {
    DigitRunChars(s);
    StripNoSpace(s);
    forall k | 0 <= k < |s|
      ensures !IsInfoSeparator(s[k])
    {
      if IsDigit(s[k]) {
        DigitIsNotSpace(s[k]);
      }
    }
    ParseIntIsSigned(s);
  }

  /**
   * Unlike `strip()`, `int()` does not skip an information separator:
   * `int("\x1c7")` raises although `"\x1c7".strip()` is `"7"`.
   */
  lemma InfoSeparatorRejected(ds: string)
    requires IsDigitRun(ds)
    ensures Strip("\U{1c}" + ds) == ds
    ensures ParseInt(ds).Some? && ParseInt("\U{1c}" + ds) == None
  {
    var s := "\U{1c}" + ds;
    assert Strip(s) == ds by {
      DigitIsNotSpace(ds[0]);
      DigitIsNotSpace(ds[|ds| - 1]);
      StripPadded("\U{1c}", ds, "");
      assert "\U{1c}" + ds + "" == s;
    }
    assert ParseInt(s) == None by {
      assert IsInfoSeparator(s[0]);
      ParseIntIsSigned(s);
    }
    ParseDigits(ds);
  }

  /**
   * `int()` reads a digit run with an optional sign and padding of the
   * whitespace it skips on either side: `int(" +7 ") == 7`,
   * `int("-1_000\n") == -1000`.
   */
  lemma ParsePadded(pre: string, sign: string, ds: string, post: string)
    requires AllIntSpace(pre) && AllIntSpace(post) && IsDigitRun(ds)
    requires sign == "" || sign == "+" || sign == "-"
    ensures forall k :: 0 <= k < |ds| ==> IsDigit(ds[k]) || ds[k] == '_'
    ensures ParseInt(pre + sign + ds + post) == Some(if sign == "-" then -DigitsValue(ds) else DigitsValue(ds))
  {
    SignedValue(sign, ds);
    SignedNoSeparator(sign + ds);
    Regroup(pre, sign, ds, post);
    PaddedNoSeparator(pre, sign + ds, post);
    StripSignedPadded(pre, sign, ds, post);
    ParseIntIsSigned(pre + sign + ds + post);
  }

  /** Padding `int()` skips adds no information separator. */
  lemma PaddedNoSeparator(pre: string, w: string, post: string)
    requires AllIntSpace(pre) && AllIntSpace(post) && !HasInfoSeparator(w)
    ensures !HasInfoSeparator(pre + w + post)
  {
    var s := pre + w + post;
    forall k | 0 <= k < |s|
      ensures !IsInfoSeparator(s[k])
    {
      if k < |pre| {
        assert s[k] == pre[k];
      } else if k < |pre| + |w| {
        assert s[k] == w[k - |pre|];
      } else {
        assert s[k] == post[k - |pre| - |w|];
      }
    }
  }

  lemma StripSignedPadded(pre: string, sign: string, ds: string, post: string)
    requires AllSpace(pre) && AllSpace(post) && IsDigitRun(ds)
    requires sign == "" || sign == "+" || sign == "-"
    ensures Strip(pre + sign + ds + post) == sign + ds
  {
    var w := sign + ds;
    assert IsTrimmed(w) by {
      DigitIsNotSpace(ds[0]);
      DigitIsNotSpace(ds[|ds| - 1]);
      assert w[|w| - 1] == ds[|ds| - 1];
    }
    Regroup(pre, sign, ds, post);
    StripPadded(pre, w, post);
  }

  /**
   * `int()` fails on any text holding an information separator: at either
   * end it stops the skipping, and inside it is neither digit, `_` nor
   * sign.  On all other text the whitespace `int()` skips is exactly what
   * `strip()` removes.
   */
  lemma ParseIntIsSigned(s: string)
    ensures ParseInt(s) == if HasInfoSeparator(s) then None else ParseSigned(Strip(s))
  {
    if HasInfoSeparator(s) {
      SeparatorKept(s);
      SignedNoSeparator(IntStrip(s));
    } else {
      IntStripIsStrip(s);
    }
  }

  /** An information separator is never skipped, so it survives into `IntStrip`. */
  lemma SeparatorKept(s: string)
    requires HasInfoSeparator(s)
    ensures HasInfoSeparator(IntStrip(s))
  {
    var n := IntLead(s);
    var m := IntTrail(s, n);
    var t := IntStrip(s);
    assert t == s[n..|s| - m];
    var k :| 0 <= k < |s| && IsInfoSeparator(s[k]);
    assert n <= k < |s| - m;
    assert t[k - n] == s[k];
  }

  /** Text `ParseSigned` accepts holds only signs, digits and `_`, so no information separator. */
  lemma SignedNoSeparator(t: string)
    ensures ParseSigned(t).Some? ==> !HasInfoSeparator(t)
  {
    if ParseSigned(t).Some? {
      var sign, ds := SignedParts(t);
      DigitRunChars(ds);
      forall k | 0 <= k < |t|
        ensures !IsInfoSeparator(t[k])
      {
        if k >= |sign| {
          assert t[k] == ds[k - |sign|];
          if IsDigit(ds[k - |sign|]) {
            DigitIsNotSpace(ds[k - |sign|]);
          }
        }
      }
    }
  }

  /** Without information separators, `int()` drops what `strip()` drops. */
  lemma IntStripIsStrip(s: string)
    requires !HasInfoSeparator(s)
    ensures IntStrip(s) == Strip(s)
  {
    var n := IntLead(s);
    var m := IntTrail(s, n);
    assert IntStrip(s) == s[n..|s| - m];
    SameLead(s);
    SameTrail(s);
  }

  /** Without information separators, `int()` skips as much at the front as `strip()`. */
  lemma SameLead(s: string)
    requires !HasInfoSeparator(s)
    ensures IntLead(s) == LeadingSpace(s)
  {
    var lead := LeadingSpace(s);
    forall k | 0 <= k < lead
      ensures IsSpace(s[k])
    {
      assert s[..lead][k] == s[k];
    }
    SameBound(s, IntLead(s), lead);
  }

  /** Without information separators, `int()` skips as much at the back as `strip()`. */
  lemma SameTrail(s: string)
    requires !HasInfoSeparator(s)
    ensures |s| - IntTrail(s, IntLead(s)) == LeadingSpace(s) + |Strip(s)|
  {
    SameLead(s);
    StripEnd(s);
    SameEnd(s, IntLead(s), |s| - IntTrail(s, IntLead(s)), LeadingSpace(s) + |Strip(s)|);
  }

  /** Where `strip()` stops at the back of `s`, as a bound on indices of `s`. */
  lemma StripEnd(s: string)
    ensures var e := LeadingSpace(s) + |Strip(s)|;
      && (forall k :: e <= k < |s| ==> IsSpace(s[k]))
      && (e > LeadingSpace(s) ==> !IsSpace(s[e - 1]))
  {
    var r := Strip(s);
    var e := LeadingSpace(s) + |r|;
    forall k | e <= k < |s|
      ensures IsSpace(s[k])
    {
      assert s[e..][k - e] == s[k];
    }
    if e > LeadingSpace(s) {
      assert r[|r| - 1] == s[e - 1];
    }
  }

  /**
   * Two counts of leading whitespace agree when the text has no
   * information separator: one by `int()`'s rule, one by `str.isspace`.
   */
  lemma SameBound(s: string, a: nat, b: nat)
    requires !HasInfoSeparator(s)
    requires a <= |s| && (forall k :: 0 <= k < a ==> IsIntSpace(s[k])) && (a < |s| ==> !IsIntSpace(s[a]))
    requires b <= |s| && (forall k :: 0 <= k < b ==> IsSpace(s[k])) && (b < |s| ==> !IsSpace(s[b]))
    ensures a == b
  {
    assert a < |s| ==> !IsSpace(s[a]) by {
      if a < |s| {
        assert !IsInfoSeparator(s[a]);
      }
    }
  }

  /** The trailing-whitespace counterpart of `SameBound`, with end indices `a` and `b` above `lo`. */
  lemma SameEnd(s: string, lo: nat, a: nat, b: nat)
    requires !HasInfoSeparator(s)
    requires lo <= a <= |s| && (forall k :: a <= k < |s| ==> IsIntSpace(s[k])) && (a > lo ==> !IsIntSpace(s[a - 1]))
    requires lo <= b <= |s| && (forall k :: b <= k < |s| ==> IsSpace(s[k])) && (b > lo ==> !IsSpace(s[b - 1]))
    ensures a == b
  {
    assert a > lo ==> !IsSpace(s[a - 1]) by {
      if a > lo {
        assert !IsInfoSeparator(s[a - 1]);
      }
    }
  }

  /**
   * Conversely, every text `int()` accepts is a digit run with an optional
   * sign, padded with whitespace `int()` skips: `ParsePadded` then gives
   * its value.
   */
  lemma ParsedShape(s: string)
    requires ParseInt(s).Some?
    ensures exists pre, sign, ds, post ::
      && s == pre + sign + ds + post
      && AllIntSpace(pre) && AllIntSpace(post) && IsDigitRun(ds)
      && (sign == "" || sign == "+" || sign == "-")
  {
    var pre, sign, ds, post := PaddedParts(s);
    assert s == pre + sign + ds + post;
  }

  /** The four parts of a text `int()` accepts, as `ParsedShape` names them. */
  lemma PaddedParts(s: string) returns (pre: string, sign: string, ds: string, post: string)
    requires ParseInt(s).Some?
    ensures s == pre + sign + ds + post
    ensures AllIntSpace(pre) && AllIntSpace(post) && IsDigitRun(ds)
    ensures sign == "" || sign == "+" || sign == "-"
  {
    var n := IntLead(s);
    var t := IntStrip(s);
    sign, ds := SignedParts(t);
    pre := s[..n];
    post := s[n + |t|..];
    LeadPadding(s);
    TrailPadding(s);
    Reassemble(s, n, n + |t|, sign, ds);
  }

  /** What `int()` skips at the front is whitespace it skips. */
  lemma LeadPadding(s: string)
    ensures AllIntSpace(s[..IntLead(s)])
  {
    var n := IntLead(s);
    forall k | 0 <= k < n
      ensures IsIntSpace(s[..n][k])
    {
      assert s[..n][k] == s[k];
    }
  }

  /** What `int()` skips at the back is whitespace it skips. */
  lemma TrailPadding(s: string)
    ensures AllIntSpace(s[|s| - IntTrail(s, IntLead(s))..])
  {
    var e := |s| - IntTrail(s, IntLead(s));
    forall k | 0 <= k < |s| - e
      ensures IsIntSpace(s[e..][k])
    {
      assert s[e..][k] == s[e + k];
    }
  }

  /** The sign and digit run of a text `ParseSigned` accepts. */
  lemma SignedParts(t: string) returns (sign: string, ds: string)
    requires ParseSigned(t).Some?
    ensures t == sign + ds && IsDigitRun(ds)
    ensures sign == "" || sign == "+" || sign == "-"
  {
    sign := if t[0] == '-' || t[0] == '+' then t[..1] else "";
    ds := t[|sign|..];
  }

  /** Empty padding is no padding. */
  lemma Unpadded<T>(a: seq<T>, b: seq<T>)
    ensures [] + a + b + [] == a + b
  {
  }

  /** Taking a whole sequence gives it back. */
  lemma TakeAll<T>(s: seq<T>)
    ensures s[..|s|] == s
  {
  }

  /** A sequence is the concatenation of its three slices. */
  lemma Slices<T>(s: seq<T>, i: nat, j: nat)
    requires i <= j <= |s|
    ensures s == s[..i] + s[i..j] + s[j..]
  {
  }

  /** Replacing a middle slice by two pieces that make it up. */
  lemma Reassemble<T>(s: seq<T>, i: nat, j: nat, a: seq<T>, b: seq<T>)
    requires i <= j <= |s| && s[i..j] == a + b
    ensures s == s[..i] + a + b + s[j..]
  {
    Slices(s, i, j);
    Regroup(s[..i], a, b, s[j..]);
  }

  /** Regrouping a four-part concatenation. */
  lemma Regroup<T>(a: seq<T>, b: seq<T>, c: seq<T>, d: seq<T>)
    ensures a + b + c + d == a + (b + c) + d
  {
  }

  /** Round trip: `int(str(n)) == n`. */
  lemma ParseDecimal(n: int)
    ensures ParseInt(Decimal(n)) == Some(n)
  {
    var m := if n < 0 then -n else n;
    var sign := if n < 0 then "-" else "";
    var ds := NatDigits(m);
    NatDigitsValue(m);
    ParsePadded("", sign, ds, "");
    assert Decimal(n) == sign + ds;
    Unpadded(sign, ds);
  }

  /** Leading zeros do not change the value `int()` reads: `int("07") == 7`. */
  lemma {:induction false} LeadingZeroValue(ds: string)
    requires forall k :: 0 <= k < |ds| ==> IsDigit(ds[k]) || ds[k] == '_'
    ensures DigitsValue("0" + ds) == DigitsValue(ds)
    decreases |ds|
  {
    if ds != [] {
      var s := "0" + ds;
      assert s[..|s| - 1] == "0" + ds[..|ds| - 1];
      LeadingZeroValue(ds[..|ds| - 1]);
    }
  }
}

=== FILE: sheet.dfy ===
/**
 * A spreadsheet as the parser receives it: rows of cells read from an
 * Excel sheet, where an empty cell is pandas' NaN.
 */
module Sheet {
  import opened Wrappers
  import PyStr

  /** One cell: empty (NaN), a whole number, or text. */
  datatype Cell = Blank | Num(n: int) | Text(s: string)

  type Row = seq<Cell>

  /** `pd.isna(cell)`. */
  predicate IsNa(c: Cell) {
    c.Blank?
  }

  /** Python's `str(cell)`; NaN prints as `nan`. */
  function Str(c: Cell): string {
    match c
    case Blank => "nan"
    case Num(n) => PyStr.Decimal(n)
    case Text(s) => s
  }

  /** Python's `int(cell)`, `None` where it raises. */
  function ToInt(c: Cell): (r: Option<int>)
    ensures IsNa(c) ==> r.None?
  {
    match c
    case Blank => None
    case Num(n) => Some(n)
    case Text(s) => PyStr.ParseInt(s)
  }

  /**
   * `int(str(cell))` agrees with `int(cell)`: NaN prints as `nan`, which
   * `int()` rejects just as it rejects NaN, and an integer prints as digits
   * that read back as itself.
   */
  lemma ToIntOfStr(c: Cell)
    ensures ToInt(Text(Str(c))) == ToInt(c)
  {
    match c
    case Blank =>
      assert "nan"[2] == 'n';
      PyStr.ParseIntNonDigitEnd("nan");
    case Num(n) =>
      PyStr.ParseDecimal(n);
    case Text(s) =>
  }

  /** Python's `s[1:]`. */
  function Rest<T>(s: seq<T>): (r: seq<T>)
    ensures |r| == if |s| == 0 then 0 else |s| - 1
  {
    if |s| == 0 then [] else s[1..]
  }

  /** Every row has one cell per column label, as in a DataFrame. */
  predicate Rectangular<L>(cols: seq<L>, rows: seq<Row>) {
    forall i :: 0 <= i < |rows| ==> |rows[i]| == |cols|
  }
}

=== FILE: tidy.dfy ===
/**
 * The tidy conversion of a weekly-block roster sheet.
 *
 * Row 0 of the sheet is a weekday header and is never read.  From row 1 on,
 * the sheet is cut into blocks of nine rows; the first row of a block holds
 * the day-of-month numbers under the weekday columns and the remaining rows
 * are shift rows: a shift label in column 0 and, under each weekday, a
 * comma-separated list of people.  Every person in a cell becomes one
 * record; an OFF row cell naming HOLIDAY instead marks its date as a
 * holiday, and records are tagged with the holiday set as it stands when
 * they are emitted.
 *
 * The traversal (`GridEvents`) lists, in block, row, column order, what
 * each cell does; `Run` threads the holiday set through that list as the
 * nested loops do.
 */
module Tidy {
  import opened Wrappers
  import opened PyStr
  import opened Sheet
  import Calendar

  /** One tidy row: `Date`, `Day`, `Shift`, `Person`, `IsHoliday`. */
  datatype Record<L> = Record(date: int, day: L, shift: string, person: string, isHoliday: bool)

  /** Why a conversion raises. */
  datatype Error =
    | MissingAnchor                        // base_year or base_month not given
    | InvalidAnchor(year: int, month: int) // datetime(year, month, 1) raises

  /** What one processed cell does. */
  datatype Event<L> =
    | Holiday(date: int)
    | Assign(date: int, day: L, shift: string, people: seq<string>)

  /** The records emitted so far and the holiday set as it stands. */
  datatype Step<L> = Step(records: seq<Record<L>>, holidays: set<int>)

  // ---------------------------------------------------------------------
  // Labels and people

  /** The shift of a row: its column-0 cell printed, trimmed and upper-cased. */
  function ShiftLabel(c: Cell): (r: string)
    ensures IsTrimmed(r) && IsUpper(r)
  {
    var t := Strip(Str(c));
    var r := Upper(t);
    assert IsTrimmed(r) by {
      if t != [] {
        assert IsSpace(r[0]) <==> IsSpace(t[0]);
        assert IsSpace(r[|r| - 1]) <==> IsSpace(t[|t| - 1]);
      }
    }
    r
  }

  /** A blank label is not skipped: `str(NaN)` gives the shift `NAN`. */
  lemma BlankLabelIsNan()
    ensures ShiftLabel(Blank) == "NAN"
  {
    var s := "nan";
    assert Str(Blank) == s;
    assert Strip(s) == s by {
      assert !IsSpace(s[0]) && !IsSpace(s[1]) && !IsSpace(s[2]);
      StripNoSpace(s);
    }
    assert Upper(s) == "NAN" by {
      var u := Upper(s);
      assert u[0] == 'N' && u[1] == 'A' && u[2] == 'N';
    }
  }

  /** A person token: non-empty, trimmed, upper-case and comma-free. */
  predicate IsToken(p: string) {
    p != [] && IsTrimmed(p) && IsUpper(p) && ',' !in p
  }

  /** Each piece stripped and upper-cased, with pieces that strip to nothing dropped. */
  function Keep(pieces: seq<string>): (r: seq<string>)
    requires CommaFree(pieces)
    ensures |r| <= |pieces|
    ensures forall i :: 0 <= i < |r| ==> IsToken(r[i])
  {
    if pieces == [] then []
    else
      var t := Strip(pieces[0]);
      StripKeepsOut(pieces[0], ',');
      if t == [] then Keep(pieces[1..])
      else
        UpperToken(t);
        [Upper(t)] + Keep(pieces[1..])
  }

  /** Upper-casing a trimmed, comma-free, non-empty piece gives a token. */
  lemma UpperToken(t: string)
    requires t != [] && IsTrimmed(t) && ',' !in t
    ensures IsToken(Upper(t))
  {
    var u := Upper(t);
    assert IsSpace(u[0]) == IsSpace(t[0]) && IsSpace(u[|u| - 1]) == IsSpace(t[|t| - 1]);
    assert ',' !in u by {
      forall k | 0 <= k < |u| ensures u[k] != ',' {
        assert t[k] != ',';
      }
    }
  }

  /** The people a cell names: its comma-separated pieces, trimmed, upper-cased, empty ones dropped. */
  function Tokens(s: string): (r: seq<string>)
    ensures forall i :: 0 <= i < |r| ==> IsToken(r[i])
    ensures |r| <= |Split(s, ',')|
  {
    Keep(Split(s, ','))
  }

  predicate CommaFree(pieces: seq<string>) {
    forall i :: 0 <= i < |pieces| ==> ',' !in pieces[i]
  }

  lemma {:induction false} KeepTokens(pieces: seq<string>)
    requires forall i :: 0 <= i < |pieces| ==> IsToken(pieces[i])
    ensures CommaFree(pieces) && Keep(pieces) == pieces
    decreases |pieces|
  {
    assert CommaFree(pieces) by {
      forall i | 0 <= i < |pieces| ensures ',' !in pieces[i] {
        assert IsToken(pieces[i]);
      }
    }
    if pieces != [] {
      var p := pieces[0];
      assert IsToken(p);
      StripTrimmed(p);
      UpperOfUpper(p);
      KeepTokens(pieces[1..]);
      KeepCons(pieces);
    }
  }

  /** Indexing past the head of `[h] + t` indexes `t`. */
  lemma ConsIndex<T>(h: T, t: seq<T>, i: int)
    requires 1 <= i <= |t|
    ensures ([h] + t)[i] == t[i - 1]
  {
  }

  lemma KeepHead(pieces: seq<string>)
    requires pieces != [] && CommaFree(pieces) && !AllSpace(pieces[0])
    ensures CommaFree(pieces[1..])
    ensures Keep(pieces) == [Upper(Strip(pieces[0]))] + Keep(pieces[1..])
  {
    KeepCons(pieces);
  }

  lemma KeepCons(pieces: seq<string>)
    requires pieces != [] && CommaFree(pieces)
    ensures CommaFree(pieces[1..])
    ensures Keep(pieces) == (if Strip(pieces[0]) == [] then [] else [Upper(Strip(pieces[0]))]) + Keep(pieces[1..])
  {
  }

  /** A single piece names one person unless it is all whitespace. */
  lemma KeepOne(p: string)
    requires ',' !in p
    ensures CommaFree([p])
    ensures Keep([p]) == if AllSpace(p) then [] else [Upper(Strip(p))]
  {
    KeepCons([p]);
    assert [p][1..] == [];
  }

  /** Pieces are kept independently: keeping a concatenation keeps each part. */
  lemma {:induction false} KeepAppend(a: seq<string>, b: seq<string>)
    requires CommaFree(a + b)
    ensures CommaFree(a) && CommaFree(b)
    ensures Keep(a + b) == Keep(a) + Keep(b)
    decreases |a|
  {
    assert CommaFree(a) && CommaFree(b) by {
      forall i | 0 <= i < |a| ensures ',' !in a[i] {
        assert a[i] == (a + b)[i];
      }
      forall i | 0 <= i < |b| ensures ',' !in b[i] {
        assert b[i] == (a + b)[|a| + i];
      }
    }
    if a == [] {
      assert a + b == b;
    } else {
      assert (a + b)[1..] == a[1..] + b;
      KeepCons(a + b);
      KeepCons(a);
      KeepAppend(a[1..], b);
    }
  }

  /** Round trip: a cell holding people joined by commas yields exactly those people. */
  lemma TokensOfJoin(names: seq<string>)
    requires forall i :: 0 <= i < |names| ==> IsToken(names[i])
    ensures Tokens(Join(names, ",")) == names
  {
    if names == [] {
      assert Split("", ',') == [""];
      KeepOne("");
    } else {
      SplitJoin(names, ',');
      KeepTokens(names);
    }
  }

  lemma {:induction false} KeepNonBlank(pieces: seq<string>)
    requires CommaFree(pieces)
    requires forall i :: 0 <= i < |pieces| ==> !AllSpace(pieces[i])
    ensures |Keep(pieces)| == |pieces|
    ensures forall i :: 0 <= i < |pieces| ==> Keep(pieces)[i] == Upper(Strip(pieces[i]))
    decreases |pieces|
  {
    if pieces != [] {
      var rest := pieces[1..];
      KeepHead(pieces);
      assert forall i :: 0 <= i < |rest| ==> !AllSpace(rest[i]) by {
        forall i | 0 <= i < |rest| ensures !AllSpace(rest[i]) {
          assert rest[i] == pieces[i + 1];
        }
      }
      KeepNonBlank(rest);
      var kr := Keep(rest);
      var kp := [Upper(Strip(pieces[0]))] + kr;
      assert forall i :: 1 <= i < |pieces| ==> kp[i] == Upper(Strip(pieces[i])) by {
        forall i | 1 <= i < |pieces|
          ensures kp[i] == Upper(Strip(pieces[i]))
        {
          ConsIndex(Upper(Strip(pieces[0])), kr, i);
          assert pieces[i] == rest[i - 1];
        }
      }
    }
  }

  /**
   * When no comma-separated piece of a cell is blank, each piece names one
   * person, its text trimmed and upper-cased, in order: `"A, b ,C"` names
   * A, B and C.
   */
  lemma TokensOfPieces(pieces: seq<string>)
    requires |pieces| >= 1 && CommaFree(pieces)
    requires forall i :: 0 <= i < |pieces| ==> !AllSpace(pieces[i])
    ensures |Tokens(Join(pieces, ","))| == |pieces|
    ensures forall i :: 0 <= i < |pieces| ==> Tokens(Join(pieces, ","))[i] == Upper(Strip(pieces[i]))
  {
    SplitJoin(pieces, ',');
    KeepNonBlank(pieces);
  }

  /** The holiday test: an OFF row whose cell names someone whose lower-casing is `holiday`. */
  predicate MarksHoliday(shift: string, people: seq<string>)
    ensures MarksHoliday(shift, people) ==> shift == "OFF" && people != []
  {
    shift == "OFF" && exists k :: 0 <= k < |people| && Lower(people[k]) == "holiday"
  }

  /** For upper-cased tokens the holiday test is membership of `HOLIDAY`. */
  lemma MarksHolidayIff(shift: string, people: seq<string>)
    requires forall i :: 0 <= i < |people| ==> IsUpper(people[i])
    ensures MarksHoliday(shift, people) <==> shift == "OFF" && "HOLIDAY" in people
  {
    assert Upper("holiday") == "HOLIDAY";
    forall k | 0 <= k < |people|
      ensures Lower(people[k]) == "holiday" <==> people[k] == "HOLIDAY"
    {
      LowerMatchIff(people[k], "holiday");
    }
    if "HOLIDAY" in people {
      var k :| 0 <= k < |people| && people[k] == "HOLIDAY";
      assert Lower(people[k]) == "holiday";
    }
  }

  // ---------------------------------------------------------------------
  // Dates

  /**
   * The date of a cell in a block: `base + (int(date cell) - 1)` days, or
   * `None` when `int()` or the date arithmetic raises.
   */
  function ResolveDate(base: int, dateVal: Cell): (r: Option<int>)
    ensures r.Some? <==> ToInt(dateVal).Some? && 1 <= base + ToInt(dateVal).value - 1 <= Calendar.MaxOrdinal
    ensures r.Some? ==> r.value == base + ToInt(dateVal).value - 1
    ensures r.Some? ==> exists y, m, d :: Calendar.ValidDate(y, m, d) && Calendar.Ordinal(y, m, d) == r.value
  {
    match ToInt(dateVal)
    case None => None
    case Some(n) => Calendar.AddDays(base, n - 1)
  }

  /**
   * A date cell holding day number `n`, as a number or as its text, falls on
   * day `n` of the anchor month whenever the month has such a day.
   */
  lemma DayNumberDate(y: int, m: int, n: int)
    requires Calendar.ValidDate(y, m, n)
    ensures ResolveDate(Calendar.FirstOfMonth(y, m), Num(n)) == Some(Calendar.Ordinal(y, m, n))
    ensures ResolveDate(Calendar.FirstOfMonth(y, m), Text(Decimal(n))) == Some(Calendar.Ordinal(y, m, n))
  {
    Calendar.OffsetIsCalendarDay(y, m, n);
    ParseDecimal(n);
  }

  /**
   * Read against a month anchor, a date cell lands on the calendar date
   * (year, month, day number) exactly when the day number lies within that
   * month; any other number rolls over into a neighbouring month.
   */
  lemma ResolvedDay(y: int, m: int, dateVal: Cell)
    requires Calendar.ValidAnchor(y, m)
    requires ResolveDate(Calendar.FirstOfMonth(y, m), dateVal).Some?
    ensures var n := ToInt(dateVal).value;
      (1 <= n <= Calendar.DaysInMonth(y, m))
      <==> Calendar.FromOrdinal(ResolveDate(Calendar.FirstOfMonth(y, m), dateVal).value) == (y, m, n)
  {
    Calendar.DayOfMonth(y, m, ToInt(dateVal).value, ResolveDate(Calendar.FirstOfMonth(y, m), dateVal).value);
  }

  // ---------------------------------------------------------------------
  // Traversal in block, row, column order

  /**
   * What every processed cell satisfies: its date is a real calendar day
   * and, for an assignment, the shift is a trimmed upper-case label and
   * each person a token.
   */
  predicate EventOk<L>(e: Event<L>) {
    && 1 <= e.date <= Calendar.MaxOrdinal
    && (e.Assign? ==> IsTrimmed(e.shift) && IsUpper(e.shift) && forall k :: 0 <= k < |e.people| ==> IsToken(e.people[k]))
  }

  predicate EventsOk<L>(es: seq<Event<L>>) {
    forall i :: 0 <= i < |es| ==> EventOk(es[i])
  }

  /** What the cell `cellVal` of a row labelled `shift` under date cell `dateVal` does, if anything. */
  function CellEvents<L>(shift: string, dateVal: Cell, cellVal: Cell, day: L, base: int): (r: seq<Event<L>>)
    ensures |r| <= 1
    ensures |r| == 1 <==> !IsNa(cellVal) && ResolveDate(base, dateVal).Some?
    ensures |r| == 1 ==> r[0].date == ResolveDate(base, dateVal).value
    ensures forall i :: 0 <= i < |r| && r[i].Assign? ==> r[i].shift == shift && r[i].day == day
    ensures IsTrimmed(shift) && IsUpper(shift) ==> EventsOk(r)
  {
    if IsNa(cellVal) || IsNa(dateVal) then []
    else
      match ResolveDate(base, dateVal)
      case None => []
      case Some(d) =>
        var people := Tokens(Str(cellVal));
        if MarksHoliday(shift, people) then [Holiday(d)] else [Assign(d, day, shift, people)]
  }

  /**
   * One shift row, column by column.  On a sheet, the date row, the shift
   * row and the day labels have the same length; the traversal stops at
   * the shortest, so it needs no precondition.
   */
  function RowEvents<L>(shift: string, dates: seq<Cell>, cells: seq<Cell>, days: seq<L>, base: int): (r: seq<Event<L>>)
    ensures |r| <= |days|
    ensures forall i :: 0 <= i < |r| && r[i].Assign? ==> r[i].shift == shift && r[i].day in days
    ensures IsTrimmed(shift) && IsUpper(shift) ==> EventsOk(r)
    decreases |days|
  {
    if days == [] || dates == [] || cells == [] then []
    else CellEvents(shift, dates[0], cells[0], days[0], base) + RowEvents(shift, dates[1..], cells[1..], days[1..], base)
  }

  /** The shift rows of one block, row by row; a sheet has no row without a label cell. */
  function ShiftRowsEvents<L>(rows: seq<Row>, dates: seq<Cell>, days: seq<L>, base: int): (r: seq<Event<L>>)
    ensures EventsOk(r)
    ensures forall i :: 0 <= i < |r| && r[i].Assign? ==> r[i].day in days
  {
    if rows == [] then []
    else if rows[0] == [] then ShiftRowsEvents(rows[1..], dates, days, base)
    else RowEvents(ShiftLabel(rows[0][0]), dates, rows[0][1..], days, base) + ShiftRowsEvents(rows[1..], dates, days, base)
  }

  predicate AllBlank(cells: seq<Cell>) {
    forall k :: 0 <= k < |cells| ==> IsNa(cells[k])
  }

  /** One block: nothing if it has under two rows or its date row is blank. */
  function WeekEvents<L>(week: seq<Row>, cols: seq<L>, base: int): seq<Event<L>>
  {
    if |week| < 2 then []
    else
      var dates := Rest(week[0]);
      if AllBlank(dates) then []
      else ShiftRowsEvents(week[1..], dates, Rest(cols), base)
  }

  /** Consecutive nine-row blocks; the last may be shorter. */
  function BlocksEvents<L>(rows: seq<Row>, cols: seq<L>, base: int): seq<Event<L>>
    decreases |rows|
  {
    if rows == [] then []
    else
      var k := if |rows| < 9 then |rows| else 9;
      WeekEvents(rows[..k], cols, base) + BlocksEvents(rows[k..], cols, base)
  }

  /** The whole sheet: row 0 is skipped, blocks start at row 1. */
  function GridEvents<L>(cols: seq<L>, grid: seq<Row>, base: int): seq<Event<L>>
  {
    if grid == [] then [] else BlocksEvents(grid[1..], cols, base)
  }

  lemma EventsOkAppend<L>(a: seq<Event<L>>, b: seq<Event<L>>)
    requires EventsOk(a) && EventsOk(b)
    ensures EventsOk(a + b)
  {
    forall i | 0 <= i < |a + b| ensures EventOk((a + b)[i]) {
      if i < |a| { assert (a + b)[i] == a[i]; } else { assert (a + b)[i] == b[i - |a|]; }
    }
  }

  /** Every assignment is on a day among `days`. */
  ghost predicate OnDays<L>(es: seq<Event<L>>, days: seq<L>) {
    forall i :: 0 <= i < |es| && es[i].Assign? ==> es[i].day in days
  }

  lemma OnDaysAppend<L>(a: seq<Event<L>>, b: seq<Event<L>>, days: seq<L>)
    requires OnDays(a, days) && OnDays(b, days)
    ensures OnDays(a + b, days)
  {
    forall i | 0 <= i < |a + b| && (a + b)[i].Assign? ensures (a + b)[i].day in days {
      if i < |a| { assert (a + b)[i] == a[i]; } else { assert (a + b)[i] == b[i - |a|]; }
    }
  }

  /** The events of one block are well formed, and each assignment's day is a column label. */
  lemma WeekEventsOk<L>(week: seq<Row>, cols: seq<L>, base: int)
    ensures EventsOk(WeekEvents(week, cols, base))
    ensures OnDays(WeekEvents(week, cols, base), Rest(cols))
  {
  }

  /**
   * Every event of the sheet carries a real date and, for an assignment, a
   * clean label, person tokens and one of the sheet's column labels as its day.
   */
  lemma {:induction false} BlocksEventsOk<L>(rows: seq<Row>, cols: seq<L>, base: int)
    ensures EventsOk(BlocksEvents(rows, cols, base))
    ensures OnDays(BlocksEvents(rows, cols, base), Rest(cols))
    decreases |rows|
  {
    if rows != [] {
      var k := if |rows| < 9 then |rows| else 9;
      var w := WeekEvents(rows[..k], cols, base);
      WeekEventsOk(rows[..k], cols, base);
      BlocksEventsOk(rows[k..], cols, base);
      EventsOkAppend(w, BlocksEvents(rows[k..], cols, base));
      OnDaysAppend(w, BlocksEvents(rows[k..], cols, base), Rest(cols));
    }
  }

  lemma GridEventsOk<L>(cols: seq<L>, grid: seq<Row>, base: int)
    ensures EventsOk(GridEvents(cols, grid, base))
    ensures OnDays(GridEvents(cols, grid, base), Rest(cols))
  {
    if grid != [] {
      BlocksEventsOk(grid[1..], cols, base);
    }
  }

  // ---------------------------------------------------------------------
  // Emission with the running holiday set

  /** One record per person, in order, all with the same date, day, shift and holiday tag. */
  function Emit<L>(d: int, day: L, shift: string, people: seq<string>, holiday: bool): (r: seq<Record<L>>)
    ensures |r| == |people|
    ensures forall k :: 0 <= k < |r| ==> r[k] == Record(d, day, shift, people[k], holiday)
  {
    if people == [] then []
    else [Record(d, day, shift, people[0], holiday)] + Emit(d, day, shift, people[1..], holiday)
  }

  /** What every emitted record satisfies: a calendar date, a trimmed upper-case shift, a person token. */
  predicate RecordOk<L>(r: Record<L>) {
    1 <= r.date <= Calendar.MaxOrdinal && IsTrimmed(r.shift) && IsUpper(r.shift) && IsToken(r.person)
  }

  predicate RecordsOk<L>(rs: seq<Record<L>>) {
    forall i :: 0 <= i < |rs| ==> RecordOk(rs[i])
  }

  /** The records an event emits when the holiday set is `H`. */
  function RecordsOf<L>(e: Event<L>, H: set<int>): seq<Record<L>> {
    match e
    case Holiday(_) => []
    case Assign(d, day, shift, people) => Emit(d, day, shift, people, d in H)
  }

  /** The dates the events mark as holidays. */
  ghost function Marked<L>(es: seq<Event<L>>): set<int> {
    if es == [] then {}
    else (if es[0].Holiday? then {es[0].date} else {}) + Marked(es[1..])
  }

  lemma {:induction false} MarkedAppend<L>(a: seq<Event<L>>, b: seq<Event<L>>)
    ensures Marked(a + b) == Marked(a) + Marked(b)
    decreases |a|
  {
    if a == [] {
      assert a + b == b;
    } else {
      assert (a + b)[1..] == a[1..] + b;
      MarkedAppend(a[1..], b);
    }
  }

  /** The holiday set after applying event `e` to `H`. */
  function After<L>(e: Event<L>, H: set<int>): set<int> {
    if e.Holiday? then H + {e.date} else H
  }

  /**
   * One processed cell: a holiday marker adds its date to the set, an
   * assignment appends its records tagged with the set as it stands.
   */
  function Apply<L>(e: Event<L>, s: Step<L>): (r: Step<L>)
    ensures s.holidays <= r.holidays
    ensures |s.records| <= |r.records| && r.records[..|s.records|] == s.records
    ensures e.Holiday? ==> r.records == s.records && e.date in r.holidays
    ensures e.Assign? ==> r.holidays == s.holidays && |r.records| == |s.records| + |e.people|
  {
    Step(s.records + RecordsOf(e, s.holidays), After(e, s.holidays))
  }

  /** The events applied in order, as the loops apply them. */
  function Run<L>(es: seq<Event<L>>, s: Step<L>): (r: Step<L>)
    ensures s.holidays <= r.holidays
    ensures |s.records| <= |r.records| && r.records[..|s.records|] == s.records
    decreases |es|
  {
    if es == [] then s else Run(es[1..], Apply(es[0], s))
  }

  /** Applying a concatenation is applying its halves one after the other. */
  lemma {:induction false} RunAppend<L>(a: seq<Event<L>>, b: seq<Event<L>>, s: Step<L>)
    ensures Run(a + b, s) == Run(b, Run(a, s))
    decreases |a|
  {
    if a == [] {
      assert a + b == b;
    } else {
      assert (a + b)[0] == a[0];
      assert (a + b)[1..] == a[1..] + b;
      RunAppend(a[1..], b, Apply(a[0], s));
    }
  }

  /** The last event is applied to the state the others leave. */
  lemma RunSnoc<L>(es: seq<Event<L>>, e: Event<L>, s: Step<L>)
    ensures Run(es + [e], s) == Apply(e, Run(es, s))
  {
    RunAppend(es, [e], s);
    assert [e][1..] == [];
  }

  /** The holiday set only grows, and by exactly the dates the events mark. */
  lemma {:induction false} RunHolidays<L>(es: seq<Event<L>>, s: Step<L>)
    ensures Run(es, s).holidays == s.holidays + Marked(es)
    decreases |es|
  {
    if es != [] {
      RunHolidays(es[1..], Apply(es[0], s));
    }
  }

  /** Records already emitted stay, unchanged and first; later ones depend only on the holiday set. */
  lemma {:induction false} RunKeepsPrefix<L>(es: seq<Event<L>>, a: seq<Record<L>>, b: seq<Record<L>>, H: set<int>)
    ensures Run(es, Step(a + b, H)) == Step(a + Run(es, Step(b, H)).records, Run(es, Step(b, H)).holidays)
    decreases |es|
  {
    if es != [] {
      var x := RecordsOf(es[0], H);
      var H' := After(es[0], H);
      assert (a + b) + x == a + (b + x);
      RunKeepsPrefix(es[1..], a, b + x, H');
    }
  }

  lemma RunKeepsRecords<L>(es: seq<Event<L>>, s: Step<L>)
    ensures Run(es, s).records == s.records + Run(es, Step([], s.holidays)).records
    ensures Run(es, s).holidays == Run(es, Step([], s.holidays)).holidays
  {
    RunKeepsPrefix(es, s.records, [], s.holidays);
    assert s.records + [] == s.records;
  }

  /**
   * The reference tagging, recomputed per event rather than threaded: each
   * event emits its records with `H` plus the dates marked by the events
   * strictly before it.
   */
  ghost function TaggedAt<L>(es: seq<Event<L>>, H: set<int>): seq<Record<L>>
    decreases |es|
  {
    if es == [] then []
    else
      var n := |es| - 1;
      TaggedAt(es[..n], H) + RecordsOf(es[n], H + Marked(es[..n]))
  }

  /** Threading the set through the events is the reference tagging. */
  lemma {:induction false} RunIsTaggedAt<L>(es: seq<Event<L>>, H: set<int>)
    ensures Run(es, Step([], H)).records == TaggedAt(es, H)
    decreases |es|
  {
    if es != [] {
      var n := |es| - 1;
      var init := es[..n];
      assert es == init + [es[n]];
      RunSnoc(init, es[n], Step([], H));
      RunHolidays(init, Step([], H));
      RunIsTaggedAt(init, H);
    }
  }

  lemma RecordsOfOk<L>(e: Event<L>, H: set<int>)
    requires EventOk(e)
    ensures RecordsOk(RecordsOf(e, H))
  {
  }

  /** Well-formed events give well-formed records. */
  lemma {:induction false} RunRecordsOk<L>(es: seq<Event<L>>, s: Step<L>)
    requires EventsOk(es) && RecordsOk(s.records)
    ensures RecordsOk(Run(es, s).records)
    decreases |es|
  {
    if es != [] {
      var x := RecordsOf(es[0], s.holidays);
      RecordsOfOk(es[0], s.holidays);
      assert RecordsOk(s.records + x) by {
        forall i | 0 <= i < |s.records + x| ensures RecordOk((s.records + x)[i]) {
          if i < |s.records| { assert (s.records + x)[i] == s.records[i]; }
          else { assert (s.records + x)[i] == x[i - |s.records|]; }
        }
      }
      RunRecordsOk(es[1..], Apply(es[0], s));
    }
  }

  // ---------------------------------------------------------------------
  // The conversion

  /**
   * `convert_schedule_to_tidy(df, base_year, base_month)`: fails when the
   * month anchor is missing or is not a valid `datetime` year and month,
   * and otherwise returns the records of the sheet in processing order.
   */
  function ConvertScheduleToTidy<L>(cols: seq<L>, grid: seq<Row>, baseYear: Option<int>, baseMonth: Option<int>)
    : (r: Result<seq<Record<L>>, Error>)
    requires Rectangular(cols, grid)
    ensures baseYear.None? || baseMonth.None? ==> r == Failure(MissingAnchor)
    ensures r.Failure? <==> baseYear.None? || baseMonth.None? || !Calendar.ValidAnchor(baseYear.value, baseMonth.value)
    ensures r.Success? ==> RecordsOk(r.value)
  {
    if baseYear.None? || baseMonth.None? then Failure(MissingAnchor)
    else if !Calendar.ValidAnchor(baseYear.value, baseMonth.value) then Failure(InvalidAnchor(baseYear.value, baseMonth.value))
    else
      var es := GridEvents(cols, grid, Calendar.FirstOfMonth(baseYear.value, baseMonth.value));
      GridEventsOk(cols, grid, Calendar.FirstOfMonth(baseYear.value, baseMonth.value));
      RunRecordsOk(es, Step([], {}));
      Success(Run(es, Step([], {})).records)
  }

  // ---------------------------------------------------------------------
  // Properties of the conversion

  /** A cell contributes nothing, a holiday mark, or one record per person named, in order. */
  lemma CellContribution<L>(shift: string, dateVal: Cell, cellVal: Cell, day: L, base: int, H: set<int>)
    ensures var s := Run(CellEvents(shift, dateVal, cellVal, day, base), Step([], H));
      IsNa(cellVal) || ResolveDate(base, dateVal).None? ==> s == Step([], H)
    ensures var s := Run(CellEvents(shift, dateVal, cellVal, day, base), Step([], H));
      var people := Tokens(Str(cellVal));
      !IsNa(cellVal) && ResolveDate(base, dateVal).Some? ==>
        var d := ResolveDate(base, dateVal).value;
        if shift == "OFF" && "HOLIDAY" in people then s == Step([], H + {d})
        else
          && s.holidays == H
          && |s.records| == |people|
          && forall k :: 0 <= k < |people| ==> s.records[k] == Record(d, day, shift, people[k], d in H)
  {
    var es := CellEvents(shift, dateVal, cellVal, day, base);
    if !IsNa(cellVal) && ResolveDate(base, dateVal).Some? {
      var people := Tokens(Str(cellVal));
      MarksHolidayIff(shift, people);
      assert !IsNa(dateVal);
      assert |es| == 1;
      assert Run(es, Step([], H)) == Apply(es[0], Step([], H)) by {
        assert es[1..] == [];
      }
      assert [] + RecordsOf(es[0], H) == RecordsOf(es[0], H);
    }
  }

  lemma RectangularAppend<L>(cols: seq<L>, p: seq<Row>, q: seq<Row>)
    requires Rectangular(cols, p + q)
    ensures Rectangular(cols, p) && Rectangular(cols, q)
  {
    assert forall i :: 0 <= i < |p| ==> p[i] == (p + q)[i];
    assert forall i :: 0 <= i < |q| ==> q[i] == (p + q)[|p| + i];
  }

  lemma NineStep(n: int)
    requires n % 9 == 0 && n >= 9
    ensures (n - 9) % 9 == 0
  {
  }

  /** Blocks are processed one after the other: nine-row groups can be split off the front. */
  lemma {:induction false} BlocksAppend<L>(p: seq<Row>, q: seq<Row>, cols: seq<L>, base: int)
    requires |p| % 9 == 0
    ensures BlocksEvents(p + q, cols, base) == BlocksEvents(p, cols, base) + BlocksEvents(q, cols, base)
    decreases |p|
  {
    if p == [] {
      assert p + q == q;
    } else {
      var pq := p + q;
      assert pq[..9] == p[..9];
      assert pq[9..] == p[9..] + q;
      NineStep(|p|);
      BlocksAppend(p[9..], q, cols, base);
    }
  }

  /** Everything before a block boundary is processed before everything after it. */
  lemma GridEventsAppend<L>(cols: seq<L>, pre: seq<Row>, post: seq<Row>, base: int)
    requires |pre| >= 1 && (|pre| - 1) % 9 == 0
    ensures GridEvents(cols, pre + post, base) == GridEvents(cols, pre, base) + BlocksEvents(post, cols, base)
  {
    var g := pre + post;
    assert g[1..] == pre[1..] + post;
    BlocksAppend(pre[1..], post, cols, base);
  }

  /**
   * Output order is block order: converting a sheet cut at a block boundary
   * gives the records of the part before the cut, then those of the part
   * after it, tagged with the holiday set the first part left behind.
   */
  lemma ConvertBlocksInOrder<L>(cols: seq<L>, pre: seq<Row>, post: seq<Row>, y: int, m: int)
    requires Calendar.ValidAnchor(y, m)
    requires |pre| >= 1 && (|pre| - 1) % 9 == 0
    requires Rectangular(cols, pre + post)
    ensures Rectangular(cols, pre) && Rectangular(cols, post)
    ensures var base := Calendar.FirstOfMonth(y, m);
      var first := Run(GridEvents(cols, pre, base), Step([], {}));
      ConvertScheduleToTidy(cols, pre + post, Some(y), Some(m))
        == Success(first.records + Run(BlocksEvents(post, cols, base), Step([], first.holidays)).records)
      && ConvertScheduleToTidy(cols, pre, Some(y), Some(m)) == Success(first.records)
  {
    var base := Calendar.FirstOfMonth(y, m);
    RectangularAppend(cols, pre, post);
    GridEventsAppend(cols, pre, post, base);
    var es := GridEvents(cols, pre, base);
    RunAppend(es, BlocksEvents(post, cols, base), Step([], {}));
    RunKeepsRecords(BlocksEvents(post, cols, base), Run(es, Step([], {})));
  }

  /** Row 0 of the sheet is never read. */
  lemma RowZeroIgnored<L>(cols: seq<L>, r0: Row, r0': Row, rest: seq<Row>, y: Option<int>, m: Option<int>)
    requires Rectangular(cols, [r0] + rest) && Rectangular(cols, [r0'] + rest)
    ensures ConvertScheduleToTidy(cols, [r0] + rest, y, m) == ConvertScheduleToTidy(cols, [r0'] + rest, y, m)
  {
    assert ([r0] + rest)[1..] == rest == ([r0'] + rest)[1..];
  }

  /** A last block of a single row contributes nothing. */
  lemma ShortTrailingBlockIgnored<L>(cols: seq<L>, grid: seq<Row>, last: Row, y: Option<int>, m: Option<int>)
    requires |grid| >= 1 && (|grid| - 1) % 9 == 0
    requires Rectangular(cols, grid + [last])
    ensures Rectangular(cols, grid)
    ensures ConvertScheduleToTidy(cols, grid + [last], y, m) == ConvertScheduleToTidy(cols, grid, y, m)
  {
    RectangularAppend(cols, grid, [last]);
    if y.Some? && m.Some? && Calendar.ValidAnchor(y.value, m.value) {
      var base := Calendar.FirstOfMonth(y.value, m.value);
      GridEventsAppend(cols, grid, [last], base);
      assert BlocksEvents([last], cols, base) == [] by {
        assert [last][1..] == [];
      }
      assert GridEvents(cols, grid, base) + [] == GridEvents(cols, grid, base);
    }
  }

  lemma RectangularWithout<L>(cols: seq<L>, pre: seq<Row>, week: seq<Row>, post: seq<Row>)
    requires Rectangular(cols, pre + week + post)
    ensures Rectangular(cols, pre + post) && Rectangular(cols, week + post)
  {
    var g := pre + week + post;
    forall i | 0 <= i < |pre + post| ensures |(pre + post)[i]| == |cols| {
      if i < |pre| {
        assert (pre + post)[i] == g[i];
      } else {
        assert (pre + post)[i] == g[i + |week|];
      }
    }
    forall i | 0 <= i < |week + post| ensures |(week + post)[i]| == |cols| {
      assert (week + post)[i] == g[|pre| + i];
    }
  }

  lemma BlankBlockFirst<L>(week: seq<Row>, post: seq<Row>, cols: seq<L>, base: int)
    requires |week| == 9 || (post == [] && 1 <= |week| <= 9)
    requires AllBlank(Rest(week[0]))
    ensures BlocksEvents(week + post, cols, base) == BlocksEvents(post, cols, base)
  {
    var wp := week + post;
    assert wp[..|week|] == week;
    assert wp[|week|..] == post;
  }

  lemma BlankWeekEvents<L>(cols: seq<L>, pre: seq<Row>, week: seq<Row>, post: seq<Row>, base: int)
    requires |pre| >= 1 && (|pre| - 1) % 9 == 0
    requires |week| == 9 || (post == [] && 1 <= |week| <= 9)
    requires AllBlank(Rest(week[0]))
    ensures GridEvents(cols, pre + week + post, base) == GridEvents(cols, pre + post, base)
  {
    assert pre + week + post == pre + (week + post);
    GridEventsAppend(cols, pre, week + post, base);
    GridEventsAppend(cols, pre, post, base);
    BlankBlockFirst(week, post, cols, base);
  }

  /**
   * A week whose date row is blank is padding: inserting one at a block
   * boundary (a full nine rows, or any length at the end) changes nothing.
   */
  lemma BlankWeekIgnored<L>(cols: seq<L>, pre: seq<Row>, week: seq<Row>, post: seq<Row>, y: Option<int>, m: Option<int>)
    requires |pre| >= 1 && (|pre| - 1) % 9 == 0
    requires |week| == 9 || (post == [] && 1 <= |week| <= 9)
    requires AllBlank(Rest(week[0]))
    requires Rectangular(cols, pre + week + post)
    ensures Rectangular(cols, pre + post)
    ensures ConvertScheduleToTidy(cols, pre + week + post, y, m) == ConvertScheduleToTidy(cols, pre + post, y, m)
  {
    RectangularWithout(cols, pre, week, post);
    if y.Some? && m.Some? && Calendar.ValidAnchor(y.value, m.value) {
      BlankWeekEvents(cols, pre, week, post, Calendar.FirstOfMonth(y.value, m.value));
    }
  }

  /**
   * Each record's holiday tag is the membership of its date in the holiday
   * set as it stands when the record is emitted: the dates marked by cells
   * processed before it.
   */
  lemma HolidayTagAtEmission<L>(cols: seq<L>, grid: seq<Row>, y: int, m: int)
    requires Calendar.ValidAnchor(y, m)
    requires Rectangular(cols, grid)
    ensures ConvertScheduleToTidy(cols, grid, Some(y), Some(m))
      == Success(TaggedAt(GridEvents(cols, grid, Calendar.FirstOfMonth(y, m)), {}))
  {
    RunIsTaggedAt(GridEvents(cols, grid, Calendar.FirstOfMonth(y, m)), {});
  }

  /**
   * A marker processed after a record for the same date does not re-tag
   * it, although the date ends up in the holiday set; a marker processed
   * before it does tag it.
   */
  lemma LateMarkerNotRetroactive<L>(d: int, day: L, shift: string, person: string)
    ensures var late := Run([Assign(d, day, shift, [person]), Holiday(d)], Step([], {}));
      late.records == [Record(d, day, shift, person, false)] && d in late.holidays
    ensures Run([Holiday(d), Assign(d, day, shift, [person])], Step([], {})).records == [Record(d, day, shift, person, true)]
  {
    var a: Event<L> := Assign(d, day, shift, [person]);
    var h: Event<L> := Holiday(d);
    var r := Record(d, day, shift, person, false);
    var r' := Record(d, day, shift, person, true);
    assert [a, h][1..] == [h] && [h][1..] == [] && [h, a][1..] == [a] && [a][1..] == [];
    assert Apply(a, Step([], {})) == Step([r], {});
    assert Apply(h, Step([r], {})) == Step([r], {d});
    assert Apply(h, Step([], {})) == Step([], {d});
    assert Apply(a, Step([], {d})) == Step([r'], {d});
    assert Run([a, h], Step([], {})) == Run([h], Step([r], {})) == Run([], Step([r], {d}));
    assert Run([h, a], Step([], {})) == Run([a], Step([], {d})) == Run([], Step([r'], {d}));
  }
}

=== FILE: viewer.dfy ===
/**
 * The viewer's data path around the parser: the month anchor read from a
 * workbook's file name, the concatenation of every workbook's records, and
 * the lookup of one date in that concatenation.
 */
module Viewer {
  import opened Wrappers
  import opened PyStr
  import opened Sheet
  import opened Tidy
  import Calendar

  /** A workbook found in the schedules folder: its file name and its sheet. */
  datatype SourceFile<L> = SourceFile(name: string, cols: seq<L>, grid: seq<Row>)

  /** Every workbook's sheet is a proper table. */
  predicate WellShaped<L>(files: seq<SourceFile<L>>) {
    forall i :: 0 <= i < |files| ==> Rectangular(files[i].cols, files[i].grid)
  }

  /**
   * Python's `s.replace(pat, "")`: occurrences of `pat` are removed scanning
   * from the left, without overlap.
   */
  function RemoveAll(s: string, pat: string): (r: string)
    requires |pat| > 0
    ensures |r| <= |s|
    ensures pat[0] !in s ==> r == s
    decreases |s|
  {
    if |s| < |pat| then s
    else if s[..|pat|] == pat then
      assert s[0] == pat[0];
      RemoveAll(s[|pat|..], pat)
    else [s[0]] + RemoveAll(s[1..], pat)
  }

  /**
   * The month anchor of a workbook: its name without `.xlsx`, split on `-`
   * into exactly two pieces that `int()` reads as year and month; `None`
   * where the unpacking or `int()` raises.
   */
  function AnchorFromName(fname: string): (r: Option<(int, int)>)
    ensures r.Some? ==> |Split(RemoveAll(fname, ".xlsx"), '-')| == 2
    ensures r.Some? ==> var parts := Split(RemoveAll(fname, ".xlsx"), '-');
      ParseInt(parts[0]) == Some(r.value.0) && ParseInt(parts[1]) == Some(r.value.1)
  {
    var parts := Split(RemoveAll(fname, ".xlsx"), '-');
    if |parts| != 2 then None
    else
      match (ParseInt(parts[0]), ParseInt(parts[1]))
      case (Some(y), Some(m)) => Some((y, m))
      case _ => None
  }

  /** A month written with two digits, as the `{month:02d}` format does. */
  function TwoDigits(m: int): string
    requires 1 <= m <= 12
  {
    if m < 10 then "0" + Decimal(m) else Decimal(m)
  }

  /** The workbook name for a month: `YYYY-MM.xlsx`. */
  function MonthFileName(y: nat, m: int): string
    requires 1 <= m <= 12
  {
    Decimal(y) + "-" + TwoDigits(m) + ".xlsx"
  }

  lemma {:induction false} RemoveSuffix(s: string)
    requires '.' !in s
    ensures RemoveAll(s + ".xlsx", ".xlsx") == s
    decreases |s|
  {
    var t := s + ".xlsx";
    if s == [] {
      assert t == ".xlsx";
      assert t[5..] == [];
    } else {
      assert t[..5] != ".xlsx" by { assert t[0] == s[0]; }
      assert t[1..] == s[1..] + ".xlsx";
      RemoveSuffix(s[1..]);
    }
  }

  lemma TwoDigitsValue(m: int)
    requires 1 <= m <= 12
    ensures ParseInt(TwoDigits(m)) == Some(m)
    ensures forall k :: 0 <= k < |TwoDigits(m)| ==> IsDigit(TwoDigits(m)[k])
  {
    var s := TwoDigits(m);
    TwoDigitsRun(m);
    if m < 10 {
      LeadingZeroValue(NatDigits(m));
    } else {
      NatDigitsValue(m);
    }
    ParseDigits(s);
  }

  /** The two-digit month is a run of digits: `NatDigits(m)`, padded with `0` below ten. */
  lemma TwoDigitsRun(m: int)
    requires 1 <= m <= 12
    ensures IsDigitRun(TwoDigits(m))
    ensures forall k :: 0 <= k < |TwoDigits(m)| ==> IsDigit(TwoDigits(m)[k])
    ensures m < 10 ==> TwoDigits(m) == "0" + NatDigits(m) && DigitsValue(NatDigits(m)) == m
  {
    var s := TwoDigits(m);
    var d := NatDigits(m);
    NatDigitsValue(m);
    if m < 10 {
      assert s == "0" + d;
      assert forall k :: 1 <= k < |s| ==> s[k] == d[k - 1];
    }
  }

  /** A name `A-B.xlsx` whose parts hold no `.` or `-` splits into exactly `A` and `B`. */
  lemma NameParts(a: string, b: string)
    requires '.' !in a && '.' !in b && '-' !in a && '-' !in b
    ensures Split(RemoveAll(a + "-" + b + ".xlsx", ".xlsx"), '-') == [a, b]
  {
    var stem := a + "-" + b;
    assert '.' !in stem by {
      forall k | 0 <= k < |stem| ensures stem[k] != '.' {
        if k < |a| { assert stem[k] == a[k]; }
        else if k > |a| { assert stem[k] == b[k - |a| - 1]; }
      }
    }
    assert a + "-" + b + ".xlsx" == stem + ".xlsx";
    RemoveSuffix(stem);
    assert Join([a, b], "-") == stem;
    SplitJoin([a, b], '-');
  }

  lemma DigitsHaveNoSeparator(s: string)
    requires forall k :: 0 <= k < |s| ==> IsDigit(s[k])
    ensures '.' !in s && '-' !in s
  {
  }

  /** Round trip: the name `YYYY-MM.xlsx` of a month gives back that month's anchor. */
  lemma AnchorOfMonthFileName(y: nat, m: int)
    requires 1 <= m <= 12
    ensures AnchorFromName(MonthFileName(y, m)) == Some((y, m))
  {
    var ys := Decimal(y);
    var ms := TwoDigits(m);
    TwoDigitsValue(m);
    ParseDecimal(y);
    DigitsHaveNoSeparator(ys);
    DigitsHaveNoSeparator(ms);
    NameParts(ys, ms);
  }

  /**
   * The anchor of a name `A-B.xlsx` is `(int(A), int(B))`, and there is
   * none exactly when `int()` rejects either part.
   */
  lemma AnchorOfParts(a: string, b: string)
    requires '.' !in a && '.' !in b && '-' !in a && '-' !in b
    ensures AnchorFromName(a + "-" + b + ".xlsx")
      == if ParseInt(a).Some? && ParseInt(b).Some? then Some((ParseInt(a).value, ParseInt(b).value)) else None
  {
    NameParts(a, b);
  }

  /** A name `A.xlsx` without a `-` has no anchor: unpacking one piece into two raises. */
  lemma UndashedNameRejected(a: string)
    requires '.' !in a && '-' !in a
    ensures AnchorFromName(a + ".xlsx") == None
  {
    RemoveSuffix(a);
    assert Join([a], "-") == a;
    SplitJoin([a], '-');
  }

  /**
   * A name `A-B.xlsx` whose month part `B` ends in neither a digit nor
   * whitespace `int()` skips has no anchor: `int(B)` raises.
   */
  lemma SuffixedNameRejected(a: string, b: string)
    requires '.' !in a && '.' !in b && '-' !in a && '-' !in b
    requires b != [] && !IsDigit(b[|b| - 1]) && !IsIntSpace(b[|b| - 1])
    ensures AnchorFromName(a + "-" + b + ".xlsx") == None
  {
    NameParts(a, b);
    ParseIntNonDigitEnd(b);
  }

  /** The month part `MM_empty` of a template name holds no separator and ends in `y`. */
  lemma TemplateMonthPart(m: int)
    requires 1 <= m <= 12
    ensures var b := TwoDigits(m) + "_empty"; '.' !in b && '-' !in b && b[|b| - 1] == 'y'
  {
    var ms := TwoDigits(m);
    TwoDigitsRun(m);
    SeparatorFreeConcat(ms, "_empty");
  }

  /** Appending a word without `.` or `-` to a run of digits keeps the result free of both. */
  lemma SeparatorFreeConcat(ds: string, w: string)
    requires forall k :: 0 <= k < |ds| ==> IsDigit(ds[k])
    requires '.' !in w && '-' !in w
    ensures '.' !in ds + w && '-' !in ds + w
  {
    forall k | 0 <= k < |ds + w|
      ensures (ds + w)[k] != '.' && (ds + w)[k] != '-'
    {
      if k < |ds| {
        assert (ds + w)[k] == ds[k];
      } else {
        assert (ds + w)[k] == w[k - |ds|];
      }
    }
  }

  /**
   * The empty template the generator page saves, `YYYY-MM_empty.xlsx`, has
   * no month anchor the viewer can read: `int("MM_empty")` raises.
   */
  lemma EmptyTemplateNameRejected(y: nat, m: int)
    requires 1 <= m <= 12
    ensures AnchorFromName(Decimal(y) + "-" + (TwoDigits(m) + "_empty") + ".xlsx") == None
  {
    var ys := Decimal(y);
    var b := TwoDigits(m) + "_empty";
    DigitsHaveNoSeparator(ys);
    TemplateMonthPart(m);
    SuffixedNameRejected(ys, b);
  }

  /** What one workbook contributes: its records, or `None` when reading its anchor or converting raises. */
  function FileRecords<L>(f: SourceFile<L>): (r: Option<seq<Record<L>>>)
    requires Rectangular(f.cols, f.grid)
    ensures r.Some? <==> AnchorFromName(f.name).Some? && Calendar.ValidAnchor(AnchorFromName(f.name).value.0, AnchorFromName(f.name).value.1)
  {
    match AnchorFromName(f.name)
    case None => None
    case Some((y, m)) =>
      match ConvertScheduleToTidy(f.cols, f.grid, Some(y), Some(m))
      case Failure(_) => None
      case Success(recs) => Some(recs)
  }

  /** The combined schedule and the names of the workbooks reported as unreadable. */
  datatype Loaded<L> = Loaded(records: seq<Record<L>>, failed: seq<string>)

  /**
   * The loading loop: each workbook in turn either adds its records to the
   * end of the combined schedule (an empty result adds nothing) or is
   * reported by name.
   */
  function LoadAll<L>(files: seq<SourceFile<L>>): (r: Loaded<L>)
    requires WellShaped(files)
    ensures |r.failed| <= |files|
  {
    if files == [] then Loaded([], [])
    else
      Join1(files[0].name, FileRecords(files[0]), LoadAll(files[1..]))
  }

  lemma UnreadableTail<L>(files: seq<SourceFile<L>>, names: seq<string>)
    requires files != [] && WellShaped(files)
    requires forall i :: 0 <= i < |names| ==> Unreadable(files[1..], names[i])
    ensures forall i :: 0 <= i < |names| ==> Unreadable(files, names[i])
  {
    forall i | 0 <= i < |names| ensures Unreadable(files, names[i]) {
      assert Unreadable(files[1..], names[i]);
      var j :| 0 <= j < |files[1..]| && files[1..][j].name == names[i] && FileRecords(files[1..][j]).None?;
      assert files[j + 1] == files[1..][j];
    }
  }

  /** Some workbook named `name` could not be converted. */
  predicate Unreadable<L>(files: seq<SourceFile<L>>, name: string)
    requires WellShaped(files)
  {
    exists j :: 0 <= j < |files| && files[j].name == name && FileRecords(files[j]).None?
  }

  /** How one workbook's outcome joins what the later workbooks give. */
  function Join1<L>(name: string, outcome: Option<seq<Record<L>>>, rest: Loaded<L>): (r: Loaded<L>)
    ensures |r.records| == |rest.records| + (if outcome.Some? then |outcome.value| else 0)
    ensures |r.failed| == |rest.failed| + (if outcome.None? then 1 else 0)
    ensures outcome.None? ==> r.failed[0] == name
    ensures r.records == (if outcome.Some? then outcome.value else []) + rest.records
    ensures r.failed[|r.failed| - |rest.failed|..] == rest.failed
  {
    match outcome
    case None => Loaded(rest.records, [name] + rest.failed)
    case Some(recs) => Loaded(recs + rest.records, rest.failed)
  }

  lemma Join1Assoc<L>(name: string, outcome: Option<seq<Record<L>>>, x: Loaded<L>, y: Loaded<L>)
    ensures Join1(name, outcome, Loaded(x.records + y.records, x.failed + y.failed))
      == Loaded(Join1(name, outcome, x).records + y.records, Join1(name, outcome, x).failed + y.failed)
  {
  }

  /** Unfolds `LoadAll` by one workbook, for the lemmas below. */
  lemma LoadAllCons<L>(files: seq<SourceFile<L>>)
    requires files != [] && WellShaped(files)
    ensures WellShaped(files[1..])
    ensures LoadAll(files) == Join1(files[0].name, FileRecords(files[0]), LoadAll(files[1..]))
  {
  }

  /**
   * One workbook alone: a converted workbook gives exactly its records and
   * no report; a failed one gives no records and is reported by name.
   */
  lemma LoadAllOne<L>(f: SourceFile<L>)
    requires Rectangular(f.cols, f.grid)
    ensures WellShaped([f])
    ensures LoadAll([f]) == if FileRecords(f).Some? then Loaded(FileRecords(f).value, []) else Loaded([], [f.name])
  {
    LoadAllCons([f]);
    assert [f][1..] == [];
    if FileRecords(f).Some? {
      assert FileRecords(f).value + [] == FileRecords(f).value;
    }
  }

  /** Conversely, every workbook that cannot be converted is reported by name. */
  lemma {:induction false} UnreadableReported<L>(files: seq<SourceFile<L>>, j: int)
    requires WellShaped(files) && 0 <= j < |files| && FileRecords(files[j]).None?
    ensures files[j].name in LoadAll(files).failed
    decreases j
  {
    var all, rest := LoadAll(files), LoadAll(files[1..]);
    LoadAllCons(files);
    if j == 0 {
      assert all.failed[0] == files[0].name;
    } else {
      assert files[1..][j - 1] == files[j];
      UnreadableReported(files[1..], j - 1);
      InSuffix(files[j].name, all.failed, rest.failed);
    }
  }

  /** What is in a suffix of a sequence is in the sequence. */
  lemma InSuffix<T>(x: T, s: seq<T>, t: seq<T>)
    requires |t| <= |s| && s[|s| - |t|..] == t && x in t
    ensures x in s
  {
    var k :| 0 <= k < |t| && t[k] == x;
    assert s[|s| - |t| + k] == x;
  }

  /** Every workbook reported by name is one that could not be converted. */
  lemma {:induction false} FailedAreUnreadable<L>(files: seq<SourceFile<L>>)
    requires WellShaped(files)
    ensures forall i :: 0 <= i < |LoadAll(files).failed| ==> Unreadable(files, LoadAll(files).failed[i])
    decreases |files|
  {
    if files != [] {
      var rest := LoadAll(files[1..]);
      FailedAreUnreadable(files[1..]);
      UnreadableTail(files, rest.failed);
      LoadAllCons(files);
      if FileRecords(files[0]).None? {
        assert Unreadable(files, files[0].name) by {
          assert files[0].name == files[0].name;
        }
        assert LoadAll(files).failed == [files[0].name] + rest.failed;
      }
    }
  }

  lemma WellShapedAppend<L>(a: seq<SourceFile<L>>, b: seq<SourceFile<L>>)
    requires WellShaped(a + b)
    ensures WellShaped(a) && WellShaped(b)
  {
    assert forall i :: 0 <= i < |a| ==> a[i] == (a + b)[i];
    assert forall i :: 0 <= i < |b| ==> b[i] == (a + b)[|a| + i];
  }

  /**
   * Loading is concatenation: the schedule of two groups of workbooks is the
   * first group's records followed by the second's, with nothing merged or
   * removed.
   */
  lemma {:induction false} LoadAllAppend<L>(a: seq<SourceFile<L>>, b: seq<SourceFile<L>>)
    requires WellShaped(a + b)
    ensures WellShaped(a) && WellShaped(b)
    ensures LoadAll(a + b) == Loaded(LoadAll(a).records + LoadAll(b).records, LoadAll(a).failed + LoadAll(b).failed)
    decreases |a|
  {
    WellShapedAppend(a, b);
    if a == [] {
      assert a + b == b;
    } else {
      var ab := a + b;
      assert ab[1..] == a[1..] + b;
      WellShapedAppend(a[1..], b);
      var la, lb := LoadAll(a[1..]), LoadAll(b);
      var o := FileRecords(a[0]);
      assert LoadAll(ab) == Join1(a[0].name, o, Loaded(la.records + lb.records, la.failed + lb.failed)) by {
        assert ab[0] == a[0];
        LoadAllCons(ab);
        LoadAllAppend(a[1..], b);
      }
      assert LoadAll(a) == Join1(a[0].name, o, la) by {
        LoadAllCons(a);
      }
      Join1Assoc(a[0].name, o, la, lb);
    }
  }

  /** One outcome joined twice onto an empty load. */
  lemma JoinTwice<L>(name: string, o: Option<seq<Record<L>>>)
    ensures var r := Join1(name, o, Join1(name, o, Loaded([], [])));
      r == if o.Some? then Loaded(o.value + o.value, []) else Loaded([], [name, name])
  {
    if o.Some? {
      assert o.value + [] == o.value;
    }
  }

  /** The same workbook loaded twice contributes its records twice. */
  lemma DuplicatesKept<L>(f: SourceFile<L>)
    requires Rectangular(f.cols, f.grid)
    ensures WellShaped([f, f])
    ensures FileRecords(f).Some? ==> LoadAll([f, f]) == Loaded(FileRecords(f).value + FileRecords(f).value, [])
    ensures FileRecords(f).None? ==> LoadAll([f, f]) == Loaded([], [f.name, f.name])
  {
    assert WellShaped([f, f]);
    LoadAllCons([f, f]);
    assert [f, f][1..] == [f];
    LoadAllCons([f]);
    assert [f][1..] == [];
    JoinTwice(f.name, FileRecords(f));
  }

  /** The rows of the combined schedule whose date is `d`, in their original order. */
  function RecordsOn<L>(all: seq<Record<L>>, d: int): (r: seq<Record<L>>)
    ensures |r| <= |all|
    ensures forall k :: 0 <= k < |r| ==> r[k].date == d && r[k] in all
    ensures forall k :: 0 <= k < |all| && all[k].date == d ==> all[k] in r
  {
    if all == [] then []
    else (if all[0].date == d then [all[0]] else []) + RecordsOn(all[1..], d)
  }

  /** The lookup distributes over concatenation, so it keeps the schedule's order. */
  lemma {:induction false} RecordsOnAppend<L>(a: seq<Record<L>>, b: seq<Record<L>>, d: int)
    ensures RecordsOn(a + b, d) == RecordsOn(a, d) + RecordsOn(b, d)
    decreases |a|
  {
    if a == [] {
      assert a + b == b;
    } else {
      assert (a + b)[1..] == a[1..] + b;
      RecordsOnAppend(a[1..], b, d);
    }
  }

  /** Records that are all on date `d` are returned unchanged and in order. */
  lemma {:induction false} RecordsOnAllSameDate<L>(all: seq<Record<L>>, d: int)
    requires forall k :: 0 <= k < |all| ==> all[k].date == d
    ensures RecordsOn(all, d) == all
    decreases |all|
  {
    if all != [] {
      RecordsOnAllSameDate(all[1..], d);
    }
  }
}

=== FILE: wrappers.dfy ===
/** Option and Result types used across the model. */
module Wrappers {

  /** A value that may be absent (a Python call that raised, or `None`). */
  datatype Option<+T> = None | Some(value: T)

  /** The outcome of a call that either returns a value or raises an error. */
  datatype Result<+R, +E> = Success(value: R) | Failure(error: E)
}
